=== FILE: README.md ===
# UOL Flash session reward engine, in Dafny

A model of the reward engine of the UOL Flash vertical feed app. The app
pays "Flash Coins" for interactions with feed posts. Like 10, comment 50,
follow 5, a completed view 5 (40 for an ad), and a share 100 from the
second share of the same post on. The amount is doubled while the boost is
active. The level is recomputed from the balance on every award.

It also models the parts of the app that feed that engine:

- **Bonus:** a one-minute daily bonus countdown.
- **Roulette:** a prize wheel whose prize is held until the user logs in and
  confirms their interests.
- **Interests:** an interest list that interactions update implicitly.
- **Feed:** a For You / Following feed that asks a content generator for one
  more post when the user scrolls near the end.
- **Store:** a rewards store with level and balance locks, a boost purchase,
  and a sponsor shelf ordered by interest.
- **Checkout:** a modal that calls back exactly once.
- **Cards:** the per-post card state (like latch, save and follow toggles,
  carousel, view-once latch, comment box).
- **Share and profile:** the derived text of the share card and the author
  profile sheet.

Each component is a module of pure functions over immutable datatypes:

| module | what it models |
|---|---|
| `Types` (types.dfy) | Categories, posts, authors, products, rewards, user statistics, and JavaScript truthiness of optional fields. |
| `Text` (text.dfy) | `trim`, ASCII lower-casing, white-space removal, and decimal rendering and parsing of numbers. |
| `Session` (session.dfy) | The app shell: every handler is one `Event`, and `Step` is the whole transition. |
| `FeedItem` (feed_item.dfy) | One post card; each event may report one interaction. |
| `Store` (store.dfy) | Store locks, the selected reward and the checkouts paid but not yet completed, the boost-or-redeem branch on completion, the sponsor order, and level progress. |
| `Payment` (payment.dfy) | The checkout steps and the coupon code. |
| `Roulette` (roulette.dfy) | The prize wheel. |
| `BonusTimer` (bonus_timer.dfy) | The daily bonus countdown. |
| `Interests` (interests.dfy) | The interests picker and the implicit interest update. |
| `Share` (share.dfy) | The share card image and its QR link. |
| `Publisher` (publisher.dfy) | The profile sheet. |

Time, randomness and the outside world are parameters of events:

- A timer firing is an event. This covers the bonus tick, the login delay,
  the checkout completion, the wheel's spin end and the roulette post's
  scheduled removal.
- `Math.random()` draws are event arguments.
- `Date.now()` is a natural number carried by a fetch completion.
- What the content generator answers is an event argument: a generated post
  or a failure.
- A content fetch is recorded as outstanding when it starts. Its completion
  may arrive at any later point, in any order relative to other fetches.

Behaviour worth noting:

- Redeeming a reward does not recompute the level. So the session keeps
  `level >= floor(coins / 1000) + 1` (`Session.Inv`), not equality.
- The follow award of 5 is paid on unfollow too.
- Interests confirmed in the picker are stored as chosen. Only the implicit
  update caps the list at five.
- Toggling the same category twice in the picker restores the selection only
  when the category was absent or last. Otherwise the category moves to the
  end (`Interests.ToggleTwiceReorders`).
- The delayed login success runs even when the login modal was closed in the
  meantime. Closing the checkout modal does not cancel its completion either.
- The like latch, the view latch and the wheel's "claimed" flag live in the
  card, not in the session. A card is mounted afresh when the feed comes back
  from the store or profile screen, when the Following tab filters its post
  out and back in, and when the empty Following message gives way to the
  scroller again. So within one session a post's like can pay again, and so
  can its view (`FeedItem.RemountReopensLatches`). `FeedItem.LikeAtMostOnce`
  bounds the likes of one mounted card.
- A new post's id is the clock reading in milliseconds. Two fetches completing
  in the same millisecond give two posts the same id: lookups then find only
  the first, and removing either removes both.
- A checkout's completion runs the confirm callback of the moment Pay was
  pressed. So it redeems the reward selected then, whatever is selected
  later. Its balance check reads the statistics of that moment too: see
  "## Findings".

## Model

| member | source | states |
|---|---|---|
| Session.AddPoints | App.tsx:262-275 | An award adds the amount, doubled exactly when the boost flag is truthy. The new level is derived from the new balance. A positive award strictly raises the balance. |
| Session.HandleInteraction | App.tsx:309-384 | The award table by kind: like 10, comment 50, follow 5, view 40 for an ad and 5 otherwise, share 100 only when the post was shared before, and nothing for save or spin. Other effects: any change to the statistics relabels the level; the boost flag is untouched; the interest list changes only through the implicit update for kinds other than view and spin. |
| Session.InteractionEffect | App.tsx:323-380 | A share bumps exactly that post's counter. A save toggles exactly that id. A follow toggles the author of the first post with that id, or nothing when no post matches. A spin stages the prize, its post and the login prompt exactly when the amount is non-zero and the post id is set. Nothing else changes. |
| Session.InteractionPoints | App.tsx:320-383 | Points are never negative, so `points > 0` is the only guard before an award. |
| Session.ViewPoints | App.tsx:334-346 | A view pays 40 exactly when the first post carrying the id is flagged as an ad, else 5. |
| Session.FindPost | App.tsx:336 | Returns the first post with the id, or none exactly when no post has it. |
| Session.StepInv | App.tsx:262-444 | Every step keeps the invariant: balance non-negative, level at least the one the balance earns, interests non-empty without repeats, picker without repeats, countdown in range, a loading login only while the modal is shown, and no reward in checkout with a negative cost. Rewards offered by the store must cost a non-negative amount. |
| Session.ShopInv | components/Store.tsx:19-48 | A store event keeps the invariant: checkout costs stay non-negative and a completion goes through the guarded redemption. |
| Session.RunInv | App.tsx:205-449 | The invariant holds after any sequence of well-formed events. |
| Session.InitialInv | App.tsx:209-220 | The mounted session (120 coins, level 1, interests `general`) satisfies the invariant. |
| Session.CatalogRedemptionsWellFormed | App.tsx:153-190 | Every catalog reward costs a non-negative amount, so selecting it keeps the invariant. |
| Session.CoinsOnlyFallOnRedeem | App.tsx:434-438 | Only the completion of an outstanding checkout can lower the balance, and then only by exactly the cost of the reward paid for. |
| Session.RedeemReward | App.tsx:434-438 | The corrected redemption, whose guard reads the current statistics. It deducts the cost exactly when the reward is not locked by balance or level, so a non-negative balance stays non-negative. The level is unchanged and otherwise the session is untouched. |
| Session.RedeemAsWritten | App.tsx:434-437 | The redemption as written: the guard reads the statistics seen when Pay was pressed, while the deduction applies to the current balance. |
| Session.StepAsWritten | components/PaymentModal.tsx:27-34 | With the redemption as written, a completion deducts the cost exactly when the reward was unlocked under the statistics seen at Pay. Every other event behaves as in `Step`. |
| Session.TwoCheckoutsPaid | components/Store.tsx:19-35 | Select, pay, close, select and pay again leaves two outstanding completions of the reward, both holding the balance seen before either fires. |
| Session.StaleCheckOverdraws | components/PaymentModal.tsx:30-33 | With a balance of exactly the cost, two such completions take the balance as written to minus the cost. The guarded redemption stops at zero. |
| Session.CheckoutRedeems | components/PaymentModal.tsx:30-33 | Selecting a reward the button offers, paying and closing still deducts its cost when the timer fires. Other outstanding checkouts are untouched. |
| Session.RedeemMatchesButton | components/Store.tsx:207-222 | The store button says "redeem" exactly for the rewards the handler deducts. Any other reward leaves the session as it was. |
| Session.RedeemExamples | App.tsx:434-438 | Example: 120 coins cannot redeem a 500-coin reward. At 2600 coins and level 3, a level-2 reward of 500 leaves 2100 coins and level 3. |
| Session.BoostPurchase | components/Store.tsx:23-48 | Buying the boost, paying and letting the timer fire reaches the activate handler, not the redeem one. The balance is unchanged, the flag is set, checkout is closed, and a like then pays 20. |
| Session.RunTicks | components/DailyBonusTimer.tsx:13-28 | While the bonus is unclaimed, ticks move only the countdown. |
| Session.BonusAfterCountdown | App.tsx:247-252 | From a fresh session, n ticks followed by a click claim the bonus exactly when n >= 60, and add 500 coins exactly then. |
| Session.BonusAtMostOnce | App.tsx:471 | In any run the bonus is claimed at most once. It is claimed in the run exactly when the final session shows it claimed. |
| Session.BonusPays | App.tsx:247-252 | A claim on a ready countdown pays 500, or 1000 under boost, and marks the bonus claimed. |
| Session.ConfirmInterests | App.tsx:283-307 | Confirming stores the chosen list and closes the picker. A positive staged prize is paid once, and the stage is reset to 0. A removal of the prize's post is scheduled when its id is set. Without a positive prize the statistics are unchanged. |
| Session.PrizeAfterLogin | App.tsx:277-307 | Spin, log in, succeed and confirm an empty selection. The result pays the boosted prize, clears the stage, schedules the post's removal, and stores `[general]`. |
| Session.PrizeWaitsForLogin | App.tsx:347-355 | A spin followed by closing the login leaves the balance unchanged and keeps the prize staged. |
| Session.PrizePaidOnce | App.tsx:292-295 | After a confirmation the picker is closed or no positive prize remains staged. |
| Session.RemovalDropsPost | App.tsx:296-301 | The scheduled removal keeps exactly the posts without the wheel post's id and clears the staged post id. When one post carries the id, the feed is the old feed with that one post cut out and the rest in order. |
| Session.WithoutId | App.tsx:299 | The filter keeps exactly the posts without the id and never lengthens the feed. |
| Session.WithoutIdAppend | App.tsx:299 | The filter distributes over concatenation, so the kept posts stay in feed order. |
| Session.WithoutIdKeepsAll | App.tsx:299 | A feed without the id comes through unchanged. |
| Session.WithoutIdDeletesOne | App.tsx:299 | When exactly one post carries the id, the filter cuts out that post and leaves the others in place. |
| Session.FirstShareFree | App.tsx:323-333 | The first share of a post pays nothing. The second pays 100. |
| Session.CatalogViewPoints | App.tsx:334-346 | Example: in the seeded feed a completed view of the ad post "2" pays 40, and of post "1" pays 5. |
| Session.CatalogShareImages | components/ShareModal.tsx:22-24 | The seeded video "1" shares its thumbnail and the seeded carousel its first slide. |
| Session.FollowedOnly | App.tsx:447-449 | The Following tab holds exactly the posts by followed authors. With no followed authors it is empty. |
| Session.FollowedOnlyAppend | App.tsx:447-449 | Filtering is applied piece by piece, so the Following tab keeps feed order. |
| Session.Visible | App.tsx:447-449 | For You shows every post. Following shows exactly the followed authors' posts. |
| Session.FollowingEmptyWithoutFollows | App.tsx:476-484 | Following nobody makes the Following tab empty, which replaces the scroller with the empty-state card. |
| Session.PrimaryInterest | App.tsx:401 | The fetch category is the first interest, or `general` for an empty list. |
| Session.ScrollTo | App.tsx:387-398 | Scrolling to a different index makes it active. One fetch is added, in the primary interest, exactly when the new index is within two of the end of the For You feed. Nothing else changes. |
| Session.ScrollNearEndFetches | App.tsx:387-432 | Reaching the second-to-last For You post requests a post in the first interest. Its answer appends exactly one post, in that category when generated. |
| Session.CompleteFetch | App.tsx:400-432 | A completed outstanding fetch appends exactly one post and keeps the earlier feed as a prefix. The request is no longer outstanding. An unknown completion changes nothing. |
| Session.NewPost | App.tsx:407-431 | A generated post keeps the generator's content, stamped with the clock as id and the requested category. A failure yields the fallback post in `general`. |
| Session.NewPostIdsDistinct | App.tsx:410-420 | Posts appended at different clock readings, or one generated and one fallback, have different ids. |
| Session.DoubleLikePaysOnce | App.tsx:499 | Two presses of a card's like button, delivered to the session, pay one like. |
| Session.WheelPrizeStaged | components/FeedItem.tsx:154-156 | A wheel prize delivered from a card is staged behind the login with the balance untouched. |
| FeedItem.Step | components/FeedItem.tsx:40-151 | The card keeps its slide in range. "Next" below the last slide advances by one and reports nothing; on the last slide it stays put. Like is a latch that reports once. Save and follow flip and always report. A view is reported only while unviewed, and deactivation reopens it. A comment is reported only from a submit, only while no sent comment is pending, and then the box is cleared and marked sent. The comment timer clears the mark and closes the sheet. Typing changes the text only while the sheet is shown. A wheel prize is forwarded with its amount. |
| FeedItem.ButtonStep | components/FeedItem.tsx:124-156 | The buttons touch only the like, save and follow flags. Like sets the latch and reports only when it was open. Save and follow flip their flag and always report. A wheel prize is forwarded with its amount. No button reports a view or a comment. |
| FeedItem.SlideStep | components/FeedItem.tsx:40-103 | Playback and the carousel touch only the slide and the view latch, keep the slide in range, and report only a view, only when the latch was open, closing it. Deactivation rewinds and reopens the latch. "Previous" stops at the first slide. |
| FeedItem.CommentStep | components/FeedItem.tsx:140-151 | A submit sends a comment exactly when the sheet is shown, no sent comment is pending and the trimmed text is non-empty; it then clears the box and marks it sent. The mark survives every event but the timer, which clears it and closes the sheet. |
| FeedItem.CommentOncePerTimer | components/FeedItem.tsx:140-151 | Until the comment timer fires, a card reports at most one comment, and none while a sent comment is pending. |
| FeedItem.SecondCommentWaits | components/FeedItem.tsx:376-411 | Example: typing and submitting twice before the timer sends only the first comment; the timer then closes the sheet. |
| FeedItem.LikeCount | components/FeedItem.tsx:283 | The shown like count is the post's count plus one exactly when liked. |
| FeedItem.LikeAtMostOnce | components/FeedItem.tsx:124-129 | Over any run a card reports at most one like. It ends liked exactly when it was liked or reported one. |
| FeedItem.ViewOncePerActivation | components/FeedItem.tsx:82-99 | Between deactivations a card reports at most one view. |
| FeedItem.ViewAgainAfterDeactivation | components/FeedItem.tsx:44-50 | After deactivation a completed video reports a view again. |
| FeedItem.RemountReopensLatches | components/FeedItem.tsx:18-32 | Once liked and viewed, a card reports neither again; a card mounted afresh for the same post starts with both latches open and reports a like and a view again. |
| FeedItem.CarouselViewOnLastSlide | components/FeedItem.tsx:90-99 | On a carousel, "next" reports a view exactly on the last slide of an unviewed card. |
| Store.ButtonLabel | components/Store.tsx:174-222 | The button offers redemption exactly when the reward is neither level- nor balance-locked. It says "locked" exactly when level-locked. A shortfall is positive and equals the missing coins. |
| Store.ProgressPercent | components/Store.tsx:89 | For a non-negative balance the progress is a whole percent in 0..99. Together with the level and the last digit it rebuilds the balance. |
| Store.StoreStep | components/Store.tsx:19-48 | A locked reward cannot be selected, and nothing behind an open checkout can be clicked. Pay records the selected reward with the statistics of that moment, once per modal. Closing clears the selection but keeps what was paid. A completion has an effect exactly when it is outstanding. It carries out the reward recorded at Pay, whatever is selected now, and is then no longer outstanding. A boost completion also closes checkout. |
| Store.Fire | components/Store.tsx:23-35 | A completion activates the boost exactly for the boost pseudo-reward. Otherwise it redeems the recorded reward under the recorded statistics. |
| Store.EffectsFollowPays | components/PaymentModal.tsx:27-34 | Over any run, effects reported plus completions still outstanding never exceed those outstanding at the start plus the Pay presses. |
| Store.ClosedCheckoutStillRedeems | components/PaymentModal.tsx:30-33 | Select an unlocked reward, pay, close, then let the timer fire: it redeems that reward under the statistics seen at Pay. The outstanding list returns to what it was. |
| Store.BoostNeverRedeems | components/Store.tsx:23-48 | Buying the boost, paying and letting the timer fire activates it and leaves checkout idle. |
| Store.SortedSponsors | components/Store.tsx:51-55 | The shelf is a permutation of the catalog with interest matches first. Each group keeps catalog order. |
| Store.InsertionSortIsPartition | components/Store.tsx:51-55 | A stable sort with the source's comparator gives exactly that shelf. |
| Payment.CouponCode | components/PaymentModal.tsx:14 | The code is `FLASH-` followed by at most six upper-case base-36 characters. |
| Payment.Open | components/PaymentModal.tsx:11-14 | The modal opens on the method screen with Pix chosen and no completion pending. |
| Payment.Step | components/PaymentModal.tsx:27-34 | Steps only advance, one at a time. The coupon never changes. `onConfirm` is called exactly when the completion fires while processing, which ends in success. |
| Payment.ConfirmAtMostOnce | components/PaymentModal.tsx:27-34 | Over any run `onConfirm` fires at most once, and exactly when the flow ends in success. |
| Payment.MethodIrrelevant | components/PaymentModal.tsx:63-83 | Dropping every method choice changes neither the steps, nor the open flag, nor the confirm count. |
| Payment.SameFlow | components/PaymentModal.tsx:63-83 | Checkouts that differ only in the chosen method behave alike. |
| Payment.CloseDoesNotCancel | components/PaymentModal.tsx:27-46 | Pay, close, then completion still calls `onConfirm` once. |
| Roulette.SegmentIndex | components/RouletteWheel.tsx:24 | The drawn index is a valid segment. |
| Roulette.Outcome | components/RouletteWheel.tsx:44 | The prize is one of 10, 20, 30, 40, 50, 80 or 100 coins. |
| Roulette.TargetRotation | components/RouletteWheel.tsx:31-34 | The target rotation brings the drawn wedge's centre to the pointer, after five full turns. |
| Roulette.Jitter | components/RouletteWheel.tsx:37 | The jitter stays within a fifth of a wedge on either side. |
| Roulette.PointerLandsInWedge | components/RouletteWheel.tsx:31-39 | With jitter, the pointer still lands inside the drawn wedge, so the shown wedge is the prize paid. |
| Roulette.GradientStops | components/RouletteWheel.tsx:52-57 | Eight contiguous stops of equal width cover the dial, and neighbours differ in colour. |
| Roulette.Step | components/RouletteWheel.tsx:18-48 | A spin is refused while spinning or after a claim. A prize is reported only on the first completion and is a segment value. |
| Roulette.AtMostOneWin | components/RouletteWheel.tsx:18-48 | Over any run the wheel reports at most one prize, always a segment value. |
| Roulette.SingleWinFromStart | components/RouletteWheel.tsx:18-48 | A fresh wheel pays at most once. |
| BonusTimer.Tick | components/DailyBonusTimer.tsx:13-28 | A tick keeps the countdown in range and never raises it. It decrements, or becomes ready at zero from one second or less. A ready countdown stays put. |
| BonusTimer.TicksFromStart | components/DailyBonusTimer.tsx:13-28 | Before the sixtieth tick the countdown shows 60 minus the ticks and is not ready. From then on it is ready at zero. |
| BonusTimer.ClaimAfterCountdown | components/DailyBonusTimer.tsx:36-40 | The gift can be clicked exactly after sixty ticks. |
| BonusTimer.Progress | components/DailyBonusTimer.tsx:30 | Progress is between 0 and 100: 0 at the start, 100 at zero. |
| BonusTimer.DisplayRoundTrip | components/DailyBonusTimer.tsx:87 | The `m:ss` label reads back as the remaining seconds. |
| BonusTimer.DisplayExamples | components/DailyBonusTimer.tsx:87 | Example: sixty seconds show as `1:00` and five as `0:05`. |
| Interests.CategoriesComplete | components/InterestsModal.tsx:9-17 | The picker lists every category exactly once. |
| Interests.NoDupBound | components/InterestsModal.tsx:22-28 | A selection without repeats has at most seven entries. |
| Interests.Toggle | components/InterestsModal.tsx:22-28 | Toggling flips exactly that category's membership, appends when it was absent, and keeps the selection free of repeats. |
| Interests.Remove | components/InterestsModal.tsx:25 | The filter keeps exactly the other categories, keeps a selection without repeats free of repeats, and never lengthens it. |
| Interests.RemoveAppend | components/InterestsModal.tsx:25 | The filter distributes over concatenation, so the remaining categories keep their order. |
| Interests.RemoveDeletesOne | components/InterestsModal.tsx:25 | In a selection without repeats, removing a selected category cuts it out where it stands. |
| Interests.ToggleDeletesOne | components/InterestsModal.tsx:22-28 | Unselecting a category in a selection without repeats cuts it out and keeps the others in order. |
| Interests.ToggleTwiceAbsent | components/InterestsModal.tsx:22-28 | Toggling an absent category twice restores the selection. |
| Interests.ToggleTwiceLast | components/InterestsModal.tsx:22-28 | Toggling the last selected category twice restores the selection. |
| Interests.ToggleTwiceSameMembers | components/InterestsModal.tsx:22-28 | Toggling twice always restores the selected set. |
| Interests.ToggleTwiceReorders | components/InterestsModal.tsx:22-28 | Example: toggling an earlier category twice moves it to the end. |
| Interests.Submit | components/InterestsModal.tsx:30-33 | A non-empty selection is confirmed as is. An empty one becomes `[general]`. The result is never empty and has no repeats. |
| Interests.Remember | App.tsx:313-318 | A known category leaves the list alone. A new one goes to the front and the list is cut to five. The result has no repeats and keeps the rest in order. |
| Share.DisplayImage | components/ShareModal.tsx:20-24 | A video never shows an empty image slot: it shows the stock picture, its thumbnail or its product image. A carousel with slides shows its first slide. Any other post shows its content URL. |
| Share.FirstTruthy | components/ShareModal.tsx:22-23 | JavaScript's `a \|\| b \|\| c`: the result is the last operand or some truthy operand. When any operand is truthy, it is one at or before the first of them. |
| Share.VideoImageIsFirstTruthy | components/ShareModal.tsx:22-23 | A video's card image is the first truthy one of thumbnail, product image and stock picture. |
| Share.QrRoundTrip | components/ShareModal.tsx:31 | The QR link reads back as the post id. |
| Share.QrDistinguishesPosts | components/ShareModal.tsx:31 | Two posts share a QR link only if they share an id. |
| Publisher.HandleBody | components/PublisherModal.tsx:56 | The handle has no white space and is no longer than the name. |
| Publisher.HandleIsLoweredVisibleChars | components/PublisherModal.tsx:56 | The handle is the name's visible characters lower-cased, since lowering and dropping white space commute. |
| Publisher.HandleIdempotent | components/PublisherModal.tsx:56 | Deriving a handle from a handle changes nothing. |
| Publisher.BioText | components/PublisherModal.tsx:59 | A non-empty bio is shown as is. Otherwise the template names the author. |
| Publisher.FollowersShown | components/PublisherModal.tsx:64 | A non-zero follower count is shown in decimal and reads back as itself. Zero is hidden like a missing count. |
| Publisher.FollowButtonToggles | components/PublisherModal.tsx:34-47 | The sheet's button flips the label and reports a follow. |
| Text.TrimEmptyIffAllSpace | components/FeedItem.tsx:143 | A comment trims to empty exactly when it is all white space. |
| Text.TrimStart | components/FeedItem.tsx:143 | Stripping the front keeps a suffix. Everything cut is white space, and what is kept is empty or starts visibly. |
| Text.TrimEnd | components/FeedItem.tsx:143 | Stripping the back keeps a prefix. Everything cut is white space, and what is kept is empty or ends visibly. |
| Text.TrimIsSlice | components/FeedItem.tsx:143 | Trimming keeps a contiguous piece of the text, starting where the leading white space ends. |
| Text.TrimEdgesVisible | components/FeedItem.tsx:143 | A non-empty trimmed text starts and ends with a visible character. |
| Text.RemoveSpaces | components/PublisherModal.tsx:56 | Removing white space leaves none and never lengthens. Text without white space comes through unchanged, and text of white space only becomes empty. |
| Text.RemoveSpacesAppend | components/PublisherModal.tsx:56 | Removal distributes over concatenation. With the one-character cases, this pins the result: the visible characters are kept, in order. |
| Text.NatToString | App.tsx:410 | A rendered number is non-empty decimal digits, one digit exactly below ten. |
| Text.ParseNatToString | App.tsx:410 | Reading a rendered number back gives the number. |
| Text.ParseIntToString | components/PublisherModal.tsx:64 | Reading a rendered integer, sign included, gives the integer. |
| Text.Pad2 | components/DailyBonusTimer.tsx:87 | Padding gives two digits that read back as the value. |

## Left out

- Rendering, CSS, animations, the confetti and the toasts: the model covers state, not pixels.
- The screen switcher (feed, store, profile). Every event is accepted in any screen, so the events a session can take are a superset of what the app allows. Interactions are accepted for any post id, not only visible ones. Likewise every card event is accepted for every kind of post: "next" and "previous" are wired only on carousels and "video ended" only on videos, so an image card could report a view only in the model.
- The content generator (services/geminiService.ts): its answer is an event argument. The ad draw `Math.random() > 0.7` is only passed to the generator, so it is not kept.
- The missing `API_KEY` case: it is one way the generator can fail, and it is covered by the `Failed` outcome.
- The login form's fields and its toggle between login and sign-up. Only the submit, the delayed success and the close button are events. The 1.5-second delay is a timer event.
- Floating point: the ad-progress bar, the scroll-position rounding (the scroll index is a natural number), and the SVG countdown ring. The wheel's rotation is in half-degrees. Its jitter is a `real`.
- JavaScript `NaN` and `Infinity` in counts and amounts: counts are unbounded integers.
- Browser calls: html2canvas, QRious, `navigator.share`, the clipboard, `window.syncHeight`, video playback and the keyboard listener. Only their effects on state are modelled.
- GamificationHUD and FlashCoinIcon: they only display the statistics.
- The store's "TOP PICK" badge, the advisory text and the sponsor links: display only.
- The catalog's media URLs, titles, descriptions, avatars, prices and partners: the seeded posts keep their ids, kinds, categories, authors, counts, products and ad flag. Each non-empty URL is replaced by a short non-empty placeholder, so its truthiness is kept, and each empty one stays empty.
- `streakDays`: it is carried but never changes.
- Text.Lower: it lower-cases ASCII letters only, while `toLowerCase` also maps other alphabets.
- The stale values React closures can see when events interleave inside one render. Events are applied one after another, each seeing the previous state. Two closures outlive their render and matter. The checkout's completion timer is modelled (see "## Findings"). The carousel's keyboard listener (components/FeedItem.tsx:108-122) is not: it is re-registered only when the card's activation, kind, slides, slide index or view latch change, so an arrow key reaches the interaction handler of the render that registered it, and that handler's `addPoints` reads that render's boost flag (App.tsx:262-264). A view reported by an arrow key after a boost completes can therefore pay 5 where `Session.AddPoints`, reading the current flag, pays 10.
- StepInv: the balance stays non-negative because the model's redemption guard reads the current statistics (`Session.RedeemReward`). With the guard as written, which reads the statistics seen at Pay, the balance can go below zero (`Session.StaleCheckOverdraws`), so the invariant is stated for the corrected guard.
- RunInv: inherits the corrected redemption guard from StepInv; as written, a run with two overlapping checkouts can end with a negative balance.
- Leaving the store screen unmounts the store and drops its selection. The screen switcher is not modelled, so the selection survives; outstanding completions survive in both.

## Findings

| source | as written | input that shows it | evidently intended | confidence | as-written member | corrected member |
|---|---|---|---|---|---|---|
| App.tsx:434-437 with components/PaymentModal.tsx:30-33 | `handleRedeem` tests `stats.coins >= reward.cost` against the statistics captured when Pay was pressed, because the two-second timer calls the confirm callback of that render; the deduction uses the current balance | 500 coins and a level-1 reward costing 500: select it, Pay, close, select it again and Pay within two seconds. Both completions pass the check and the balance ends at -500 | refuse a redemption the current balance cannot cover, so the balance never goes below zero | medium, not executed | Session.RedeemAsWritten (Session.StaleCheckOverdraws) | Session.RedeemReward (Session.StepInv) |

=== FILE: bonus_timer.dfy ===
/** The daily bonus countdown: a one-minute timer ticking once a second that
    turns into a claimable gift when it reaches zero. The interval is a
    discrete `Tick` event; once ready the interval is cleared, so further
    ticks change nothing. */
module BonusTimer {
  import opened Text

  const DURATION: nat := 60

  datatype Timer = Timer(timeLeft: int, ready: bool)

  const START: Timer := Timer(DURATION, false)

  predicate Valid(t: Timer) {
    0 <= t.timeLeft <= DURATION && (t.ready ==> t.timeLeft == 0)
  }

  /** One interval callback: count down, and at one second or less stop at
      zero and become claimable. */
  function Tick(t: Timer): (r: Timer)
    ensures Valid(t) ==> Valid(r)
    ensures Valid(t) ==> r.timeLeft <= t.timeLeft
    ensures t.ready ==> r == t
    ensures !t.ready && t.timeLeft > 1 ==> r == Timer(t.timeLeft - 1, false)
    ensures !t.ready && t.timeLeft <= 1 ==> r.ready && r.timeLeft == 0
  {
    if t.ready then t
    else if t.timeLeft <= 1 then Timer(0, true)
    else Timer(t.timeLeft - 1, false)
  }

  function Ticks(t: Timer, n: nat): Timer
    decreases n
  {
    if n == 0 then t else Ticks(Tick(t), n - 1)
  }

  /** Before the sixtieth tick the timer counts down one second per tick and
      is not claimable; from the sixtieth on it is claimable at zero. */
  lemma {:induction false} TicksFromStart(n: nat)
    ensures n < DURATION ==> Ticks(START, n) == Timer(DURATION - n, false)
    ensures n >= DURATION ==> Ticks(START, n) == Timer(0, true)
  {
    TicksFrom(START, n);
  }

  lemma {:induction false} TicksFrom(t: Timer, n: nat)
    requires !t.ready && t.timeLeft >= 1
    ensures n < t.timeLeft ==> Ticks(t, n) == Timer(t.timeLeft - n, false)
    ensures n >= t.timeLeft ==> Ticks(t, n) == Timer(0, true)
    decreases n
  {
    if n > 0 {
      if t.timeLeft > 1 {
        TicksFrom(Tick(t), n - 1);
      } else {
        ReadyStays(Tick(t), n - 1);
      }
    }
  }

  lemma {:induction false} ReadyStays(t: Timer, n: nat)
    requires t.ready
    ensures Ticks(t, n) == t
    decreases n
  {
    if n > 0 {
      ReadyStays(Tick(t), n - 1);
    }
  }

  /** Clicking the gift calls the claim handler only in the ready state. */
  function Click(t: Timer): (fires: bool) {
    t.ready
  }

  /** From the start, the claim handler is reachable exactly after sixty ticks. */
  lemma ClaimAfterCountdown(n: nat)
    ensures Click(Ticks(START, n)) <==> n >= DURATION
  {
    TicksFromStart(n);
  }

  /** Share of the countdown elapsed, in percent. */
  function Progress(t: Timer): (p: real)
    requires Valid(t)
    ensures 0.0 <= p <= 100.0
    ensures t.timeLeft == DURATION ==> p == 0.0
    ensures t.timeLeft == 0 ==> p == 100.0
  {
    (DURATION - t.timeLeft) as real / DURATION as real * 100.0
  }

  /** The `m:ss` label. */
  function Display(secs: nat): (s: string)
    ensures |s| >= 4 && s[|s| - 3] == ':'
  {
    NatToString(secs / 60) + ":" + Pad2(secs % 60)
  }

  /** Reads an `m:ss` label back into seconds. */
  function ParseDisplay(s: string): int
    requires |s| >= 4 && s[|s| - 3] == ':'
    requires forall i :: 0 <= i < |s| - 3 ==> IsDigit(s[i])
    requires IsDigit(s[|s| - 2]) && IsDigit(s[|s| - 1])
  {
    ParseNat(s[..|s| - 3]) * 60 + DigitValue(s[|s| - 2]) * 10 + DigitValue(s[|s| - 1])
  }

  /** The label determines the time left: minutes, then seconds below sixty. */
  lemma DisplayRoundTrip(secs: nat)
    ensures var s := Display(secs);
      (forall i :: 0 <= i < |s| - 3 ==> IsDigit(s[i]))
      && IsDigit(s[|s| - 2]) && IsDigit(s[|s| - 1])
      && ParseDisplay(s) == secs
  {
    var s := Display(secs);
    var m := NatToString(secs / 60);
    assert s[..|s| - 3] == m;
    ParseNatToString(secs / 60);
  }

  lemma DisplayExamples()
    ensures Display(60) == "1:00"
    ensures Display(5) == "0:05"
  {
    assert NatToString(1) == "1";
    assert NatToString(0) == "0";
    assert NatToString(5) == "5";
  }
}

=== FILE: feed_item.dfy ===
/** One post card in the feed: the like latch, save and follow toggles, the
    carousel position, the "viewed" latch that makes a completed view count
    once per activation, the comments sheet with its "sent" lockout, and the
    roulette hand-off. Each
    event may report one interaction to the session. Video playback and
    ad-progress are left to the browser; only their `ended` event matters. */
module FeedItem {
  import opened Types
  import opened Text

  /** The comments sheet: whether it is shown, the typed text, and the
      "sent" mark, which is set from a submitted comment until its
      1.5-second timer closes the sheet, so it also marks that timer as
      pending. */
  datatype CommentBox = CommentBox(open: bool, text: string, sent: bool)

  datatype Item = Item(liked: bool, saved: bool, following: bool, currentSlide: int, hasViewed: bool,
                       comments: CommentBox)

  datatype ItemEvent =
    | LikePressed
    | SavePressed
    | FollowPressed
    | SharePressed
    | NextSlide
    | PrevSlide
    | VideoEnded
    | Deactivated
    | SyncSaved(isSaved: bool)
    | SyncFollowing(isFollowing: bool)
    | CommentsOpened
    | CommentsClosed
    | CommentTyped(text: string)
    | CommentSubmitted
    | CommentTimerFired
    | RouletteWon(amount: int)

  /** A freshly mounted card: local flags copied from the session's props. */
  function Mount(isSaved: bool, isFollowing: bool): Item {
    Item(false, isSaved, isFollowing, 0, false, CommentBox(false, "", false))
  }

  /** The last slide index (0 when there are no slides). */
  function LastSlide(post: Post): nat {
    match post.slides
    case Some(s) => if |s| > 0 then |s| - 1 else 0
    case None => 0
  }

  predicate Valid(post: Post, item: Item) {
    0 <= item.currentSlide <= LastSlide(post)
  }

  function Emit(post: Post, kind: InteractionKind): Option<Interaction> {
    Some(Interaction(kind, post.category, None))
  }

  /** The like count the card shows. */
  function LikeCount(post: Post, item: Item): (n: int)
    ensures item.liked ==> n == post.likes + 1
    ensures !item.liked ==> n == post.likes
  {
    post.likes + if item.liked then 1 else 0
  }

  function Step(post: Post, item: Item, e: ItemEvent): (r: (Item, Option<Interaction>))
    requires Valid(post, item)
    ensures Valid(post, r.0)
    ensures r.1.Some? ==> r.1.value.category == post.category
    // like latch
    ensures e.LikePressed? ==> r.0.liked && (r.1.Some? <==> !item.liked)
    ensures r.1.Some? && r.1.value.kind == Like ==> e.LikePressed? && !item.liked
    ensures !e.LikePressed? ==> r.0.liked == item.liked
    // save and follow flip and always report
    ensures e.SavePressed? ==> r.0.saved == !item.saved && r.1 == Emit(post, Save)
    ensures e.FollowPressed? ==> r.0.following == !item.following && r.1 == Emit(post, Follow)
    // views: once until deactivation
    ensures r.1.Some? && r.1.value.kind == View ==> !item.hasViewed && r.0.hasViewed
    ensures e.Deactivated? ==> r.0.currentSlide == 0 && !r.0.hasViewed && r.1.None?
    ensures !e.Deactivated? && item.hasViewed ==> r.0.hasViewed
    ensures e.PrevSlide? ==> r.0.currentSlide == if item.currentSlide > 0 then item.currentSlide - 1 else 0
    ensures e.NextSlide? && item.currentSlide < LastSlide(post) ==> r.0.currentSlide == item.currentSlide + 1 && r.1.None?
    ensures e.NextSlide? && item.currentSlide == LastSlide(post) ==> r.0.currentSlide == item.currentSlide
    // comments
    ensures e.CommentSubmitted? ==>
              (r.1.Some? <==> item.comments.open && !item.comments.sent && Trim(item.comments.text) != [])
    ensures e.CommentSubmitted? && r.1.Some? ==> r.0.comments.text == [] && r.0.comments.sent && r.1 == Emit(post, Comment)
    ensures r.1.Some? && r.1.value.kind == Comment ==> e.CommentSubmitted? && !item.comments.sent && r.0.comments.sent
    ensures !e.CommentTimerFired? && item.comments.sent ==> r.0.comments.sent
    ensures e.CommentTimerFired? && item.comments.sent ==> !r.0.comments.sent && !r.0.comments.open && r.1.None?
    ensures e.CommentTyped? ==> r.0.comments.text == if item.comments.open then e.text else item.comments.text
    // roulette
    ensures e.RouletteWon? ==> r.1 == Some(Interaction(Spin, post.category, Some(e.amount)))
  {
    if IsCommentEvent(e) then
      var (box, sent) := CommentStep(item.comments, e);
      (item.(comments := box), if sent then Emit(post, Comment) else None)
    else if IsSlideEvent(e) then SlideStep(post, item, e)
    else ButtonStep(post, item, e)
  }

  predicate IsSlideEvent(e: ItemEvent) {
    e.NextSlide? || e.PrevSlide? || e.VideoEnded? || e.Deactivated?
  }

  /** The card's buttons and the session's prop updates. */
  function ButtonStep(post: Post, item: Item, e: ItemEvent): (r: (Item, Option<Interaction>))
    requires !IsCommentEvent(e) && !IsSlideEvent(e)
    ensures r.0 == item.(liked := r.0.liked, saved := r.0.saved, following := r.0.following)
    ensures r.1.Some? ==> r.1.value.category == post.category && r.1.value.kind != Comment && r.1.value.kind != View
    ensures e.LikePressed? ==> r.0.liked && (r.1.Some? <==> !item.liked)
    ensures r.1.Some? && r.1.value.kind == Like ==> e.LikePressed? && !item.liked
    ensures !e.LikePressed? ==> r.0.liked == item.liked
    ensures e.SavePressed? ==> r.0.saved == !item.saved && r.1 == Emit(post, Save)
    ensures e.FollowPressed? ==> r.0.following == !item.following && r.1 == Emit(post, Follow)
    ensures e.RouletteWon? ==> r.1 == Some(Interaction(Spin, post.category, Some(e.amount)))
  {
    match e
    case LikePressed =>
      if !item.liked then (item.(liked := true), Emit(post, Like)) else (item, None)
    case SavePressed =>
      (item.(saved := !item.saved), Emit(post, Save))
    case FollowPressed =>
      (item.(following := !item.following), Emit(post, Follow))
    case SharePressed =>
      (item, Emit(post, Share))
    case SyncSaved(b) =>
      (item.(saved := b), None)
    case SyncFollowing(b) =>
      (item.(following := b), None)
    case RouletteWon(amount) =>
      (item, Some(Interaction(Spin, post.category, Some(amount))))
  }

  /** The carousel, video playback and activation: the slide position and
      the view latch. */
  function SlideStep(post: Post, item: Item, e: ItemEvent): (r: (Item, Option<Interaction>))
    requires Valid(post, item) && IsSlideEvent(e)
    ensures Valid(post, r.0)
    ensures r.0 == item.(currentSlide := r.0.currentSlide, hasViewed := r.0.hasViewed)
    ensures r.1.Some? ==> r.1 == Emit(post, View) && !item.hasViewed && r.0.hasViewed
    ensures e.Deactivated? ==> r.0.currentSlide == 0 && !r.0.hasViewed && r.1.None?
    ensures !e.Deactivated? && item.hasViewed ==> r.0.hasViewed
    ensures e.PrevSlide? ==> r.0.currentSlide == if item.currentSlide > 0 then item.currentSlide - 1 else 0
    ensures e.NextSlide? && item.currentSlide < LastSlide(post) ==> r.0.currentSlide == item.currentSlide + 1 && r.1.None?
    ensures e.NextSlide? && item.currentSlide == LastSlide(post) ==> r.0.currentSlide == item.currentSlide
  {
    match e
    case NextSlide =>
      if post.slides.Some? && item.currentSlide < |post.slides.value| - 1 then
        (item.(currentSlide := item.currentSlide + 1), None)
      else if !item.hasViewed then
        (item.(hasViewed := true), Emit(post, View))
      else (item, None)
    case PrevSlide =>
      if item.currentSlide > 0 then (item.(currentSlide := item.currentSlide - 1), None) else (item, None)
    case VideoEnded =>
      if !item.hasViewed then (item.(hasViewed := true), Emit(post, View)) else (item, None)
    case Deactivated =>
      (item.(currentSlide := 0, hasViewed := false), None)
  }

  predicate IsCommentEvent(e: ItemEvent) {
    e.CommentsOpened? || e.CommentsClosed? || e.CommentTyped? || e.CommentSubmitted? || e.CommentTimerFired?
  }

  /** The comments sheet: it is opened from the comment button and closed by
      its backdrop or by the timer of a sent comment. A comment is sent only
      from the open sheet, with visible text, and not while an earlier one is
      still marked sent. The flag says whether a comment was sent. */
  function CommentStep(box: CommentBox, e: ItemEvent): (r: (CommentBox, bool))
    requires IsCommentEvent(e)
    ensures r.1 <==> e.CommentSubmitted? && box.open && !box.sent && Trim(box.text) != []
    ensures r.1 ==> r.0 == CommentBox(true, [], true)
    ensures !e.CommentTimerFired? && box.sent ==> r.0.sent
    ensures e.CommentTimerFired? && box.sent ==> !r.0.sent && !r.0.open
    ensures e.CommentTimerFired? && !box.sent ==> r.0 == box
    ensures e.CommentTyped? ==> r.0 == if box.open then box.(text := e.text) else box
    ensures e.CommentsOpened? ==> r.0 == box.(open := true)
    ensures e.CommentsClosed? ==> r.0 == box.(open := false)
  {
    match e
    case CommentsOpened =>
      (box.(open := true), false)
    case CommentsClosed =>
      (box.(open := false), false)
    case CommentTyped(t) =>
      // the input exists only while the sheet is shown
      if box.open then (box.(text := t), false) else (box, false)
    case CommentSubmitted =>
      // the send button is disabled while a sent comment is pending
      if box.open && !box.sent && Trim(box.text) != [] then (box.(text := [], sent := true), true) else (box, false)
    case CommentTimerFired =>
      if box.sent then (box.(sent := false, open := false), false) else (box, false)
  }

  function Run(post: Post, item: Item, events: seq<ItemEvent>): (r: (Item, seq<Interaction>))
    requires Valid(post, item)
    ensures Valid(post, r.0)
    decreases |events|
  {
    if events == [] then (item, [])
    else
      var (i1, out) := Step(post, item, events[0]);
      var (i2, rest) := Run(post, i1, events[1..]);
      (i2, (if out.Some? then [out.value] else []) + rest)
  }

  function Count(out: seq<Interaction>, kind: InteractionKind): nat {
    if out == [] then 0
    else (if out[0].kind == kind then 1 else 0) + Count(out[1..], kind)
  }

  /** Counting over one step's report followed by the rest of a run. */
  lemma CountStep(out: Option<Interaction>, rest: seq<Interaction>, kind: InteractionKind)
    ensures Count((if out.Some? then [out.value] else []) + rest, kind)
         == (if out.Some? && out.value.kind == kind then 1 else 0) + Count(rest, kind)
  {
    if out.Some? {
      assert ([out.value] + rest)[1..] == rest;
    } else {
      assert [] + rest == rest;
    }
  }

  /** A card reports a like at most once in its lifetime. */
  lemma {:induction false} LikeAtMostOnce(post: Post, item: Item, events: seq<ItemEvent>)
    requires Valid(post, item)
    ensures Count(Run(post, item, events).1, Like) <= if item.liked then 0 else 1
    ensures Run(post, item, events).0.liked == (item.liked || Count(Run(post, item, events).1, Like) == 1)
    decreases |events|
  {
    if events != [] {
      var (i1, out) := Step(post, item, events[0]);
      LikeAtMostOnce(post, i1, events[1..]);
      CountStep(out, Run(post, i1, events[1..]).1, Like);
    }
  }

  /** Between two deactivations a card reports at most one completed view. */
  lemma {:induction false} ViewOncePerActivation(post: Post, item: Item, events: seq<ItemEvent>)
    requires Valid(post, item)
    requires forall k :: 0 <= k < |events| ==> !events[k].Deactivated?
    ensures Count(Run(post, item, events).1, View) <= if item.hasViewed then 0 else 1
    decreases |events|
  {
    if events != [] {
      var (i1, out) := Step(post, item, events[0]);
      ViewOncePerActivation(post, i1, events[1..]);
      CountStep(out, Run(post, i1, events[1..]).1, View);
    }
  }

  /** Until the "sent" timer fires a card reports at most one comment, and
      none while a sent comment is still pending. */
  lemma {:induction false} CommentOncePerTimer(post: Post, item: Item, events: seq<ItemEvent>)
    requires Valid(post, item)
    requires forall k :: 0 <= k < |events| ==> !events[k].CommentTimerFired?
    ensures Count(Run(post, item, events).1, Comment) <= if item.comments.sent then 0 else 1
    decreases |events|
  {
    if events != [] {
      var (i1, out) := Step(post, item, events[0]);
      CommentOncePerTimer(post, i1, events[1..]);
      CountStep(out, Run(post, i1, events[1..]).1, Comment);
    }
  }

  /** Two comments typed and sent in a row, before the timer fires, pay one
      comment; after the timer closes the sheet, it has to be reopened. */
  lemma SecondCommentWaits(box: CommentBox)
    requires box.open && !box.sent
    ensures var (b1, _) := CommentStep(box, CommentTyped("a"));
      var (b2, sent2) := CommentStep(b1, CommentSubmitted);
      var (b3, _) := CommentStep(b2, CommentTyped("b"));
      var (b4, sent4) := CommentStep(b3, CommentSubmitted);
      var (b5, _) := CommentStep(b4, CommentTimerFired);
      sent2 && !sent4 && !b5.open && !b5.sent
  {
    TrimEmptyIffAllSpace("a");
    assert !IsSpace("a"[0]);
  }

  /** After deactivation the view latch is open again. */
  lemma ViewAgainAfterDeactivation(post: Post, item: Item)
    requires Valid(post, item)
    ensures var i1 := Step(post, item, Deactivated).0;
      Step(post, i1, VideoEnded).1 == Emit(post, View)
  {
  }

  /** The latches live in the card, not in the session: a card mounted again
      for the same post (after a screen change or a Following-tab filter)
      starts with both latches open, so a liked and viewed post reports a
      like and a view again. */
  lemma RemountReopensLatches(post: Post, item: Item)
    requires Valid(post, item)
    ensures var (i1, _) := Step(post, item, LikePressed);
      var (i2, _) := Step(post, i1, VideoEnded);
      var again := Mount(i2.saved, i2.following);
      && i2.liked && i2.hasViewed
      && Step(post, i2, LikePressed).1.None? && Step(post, i2, VideoEnded).1.None?
      && Step(post, again, LikePressed).1 == Emit(post, Like)
      && Step(post, again, VideoEnded).1 == Emit(post, View)
  {
  }

  /** On a carousel the view comes from the last slide, and only from it. */
  lemma CarouselViewOnLastSlide(post: Post, item: Item)
    requires Valid(post, item)
    requires post.slides.Some? && |post.slides.value| > 0
    ensures Step(post, item, NextSlide).1.Some? <==> item.currentSlide == LastSlide(post) && !item.hasViewed
  {
  }
}

=== FILE: interests.dfy ===
/** The user's interest list: the interests picker (a toggle set submitted
    as a non-empty list) and the implicit "remember the category I just
    engaged with" update the session applies on most interactions. */
module Interests {
  import opened Types

  /** The picker's categories, in display order. */
  const CATEGORIES: seq<Category> := [Tech, Fashion, Sports, Travel, Entertainment, Food, General]

  /** The most recent interests the implicit update keeps. */
  const RECENT_LIMIT: nat := 5

  predicate NoDup<T(==)>(s: seq<T>) {
    forall i, j :: 0 <= i < j < |s| ==> s[i] != s[j]
  }

  /** The picker offers every category, each once. */
  lemma CategoriesComplete()
    ensures forall c: Category :: c in CATEGORIES
    ensures NoDup(CATEGORIES)
    ensures |CATEGORIES| == 7
  {
    forall c: Category ensures c in CATEGORIES {
      match c
      case Tech => assert CATEGORIES[0] == c;
      case Fashion => assert CATEGORIES[1] == c;
      case Sports => assert CATEGORIES[2] == c;
      case Travel => assert CATEGORIES[3] == c;
      case Entertainment => assert CATEGORIES[4] == c;
      case Food => assert CATEGORIES[5] == c;
      case General => assert CATEGORIES[6] == c;
    }
  }

  function Elements<T(==)>(s: seq<T>): set<T> {
    set x | x in s
  }

  lemma {:induction false} NoDupElements<T>(s: seq<T>)
    requires NoDup(s)
    ensures |Elements(s)| == |s|
  {
    if s != [] {
      var t := s[1..];
      assert NoDup(t);
      NoDupElements(t);
      assert Elements(s) == {s[0]} + Elements(t);
      assert s[0] !in Elements(t);
    }
  }

  /** A duplicate-free interest list has at most seven entries. */
  lemma NoDupBound(s: seq<Category>)
    requires NoDup(s)
    ensures |s| <= 7
  {
    NoDupElements(s);
    CategoriesComplete();
    NoDupElements(CATEGORIES);
    var all := Elements(CATEGORIES);
    assert all == Elements(s) + (all - Elements(s));
  }

  /** The picker's selection when it opens. */
  const INITIAL_SELECTION: seq<Category> := []

  /** `filter(i => i !== id)`. */
  function Remove(s: seq<Category>, id: Category): (r: seq<Category>)
    ensures forall c :: c in r <==> c in s && c != id
    ensures NoDup(s) ==> NoDup(r)
    ensures |r| <= |s|
  {
    if s == [] then []
    else if s[0] == id then Remove(s[1..], id)
    else
      var rest := Remove(s[1..], id);
      assert NoDup(s) ==> s[0] !in s[1..];
      [s[0]] + rest
  }

  /** `toggleInterest`: drop a selected category, append an unselected one. */
  function Toggle(sel: seq<Category>, id: Category): (r: seq<Category>)
    ensures id in r <==> id !in sel
    ensures forall c :: c != id ==> (c in r <==> c in sel)
    ensures id !in sel ==> r == sel + [id]
    ensures NoDup(sel) ==> NoDup(r)
  {
    if id in sel then Remove(sel, id) else sel + [id]
  }

  lemma {:induction false} RemoveAbsent(s: seq<Category>, id: Category)
    requires id !in s
    ensures Remove(s, id) == s
  {
    if s != [] {
      RemoveAbsent(s[1..], id);
    }
  }

  /** Filtering is taken piece by piece, so the remaining categories keep
      their order. */
  lemma {:induction false} RemoveAppend(a: seq<Category>, b: seq<Category>, id: Category)
    ensures Remove(a + b, id) == Remove(a, id) + Remove(b, id)
  {
    if a == [] {
      assert a + b == b;
    } else {
      assert (a + b)[0] == a[0];
      assert (a + b)[1..] == a[1..] + b;
      RemoveAppend(a[1..], b, id);
    }
  }

  /** In a selection without repeats, dropping a selected category cuts it
      out where it stands; the others keep their places. */
  lemma RemoveDeletesOne(s: seq<Category>, id: Category, k: nat)
    requires NoDup(s) && k < |s| && s[k] == id
    ensures Remove(s, id) == s[..k] + s[k + 1..]
  {
    assert s == s[..k] + ([s[k]] + s[k + 1..]);
    RemoveAppend(s[..k], [s[k]] + s[k + 1..], id);
    RemoveAppend([s[k]], s[k + 1..], id);
    assert id !in s[..k];
    assert id !in s[k + 1..];
    RemoveAbsent(s[..k], id);
    RemoveAbsent(s[k + 1..], id);
  }

  /** Unselecting a category in the picker cuts it out where it stands. */
  lemma ToggleDeletesOne(sel: seq<Category>, id: Category, k: nat)
    requires NoDup(sel) && k < |sel| && sel[k] == id
    ensures Toggle(sel, id) == sel[..k] + sel[k + 1..]
  {
    RemoveDeletesOne(sel, id, k);
  }

  /** Toggling a category that was not selected, twice, restores the selection. */
  lemma ToggleTwiceAbsent(sel: seq<Category>, id: Category)
    requires id !in sel
    ensures Toggle(Toggle(sel, id), id) == sel
  {
    RemoveLast(sel, id);
  }

  lemma {:induction false} RemoveLast(s: seq<Category>, id: Category)
    requires id !in s
    ensures Remove(s + [id], id) == s
  {
    if s == [] {
      assert [id][1..] == [];
    } else {
      assert (s + [id])[1..] == s[1..] + [id];
      RemoveLast(s[1..], id);
    }
  }

  /** Toggling a selected category twice restores the selection when it was
      the last one picked; otherwise it moves to the end (see below). */
  lemma ToggleTwiceLast(sel: seq<Category>, id: Category)
    requires NoDup(sel) && |sel| > 0 && sel[|sel| - 1] == id
    ensures Toggle(Toggle(sel, id), id) == sel
  {
    var front := sel[..|sel| - 1];
    assert sel == front + [id];
    assert id !in front;
    RemoveLast(front, id);
  }

  /** Toggling twice always restores the selection as a set. */
  lemma ToggleTwiceSameMembers(sel: seq<Category>, id: Category)
    ensures forall c :: c in Toggle(Toggle(sel, id), id) <==> c in sel
  {
  }

  /** A selected category that is not last moves to the end after two toggles. */
  lemma ToggleTwiceReorders()
    ensures Toggle(Toggle([Tech, Food], Tech), Tech) == [Food, Tech]
  {
    assert Toggle([Tech, Food], Tech) == [Food];
  }

  /** `handleSubmit`: an empty selection is replaced by the general category. */
  function Submit(sel: seq<Category>): (r: seq<Category>)
    ensures |r| > 0
    ensures |sel| > 0 ==> r == sel
    ensures |sel| == 0 ==> r == [General]
    ensures NoDup(sel) ==> NoDup(r)
  {
    if |sel| > 0 then sel else [General]
  }

  /** The implicit update: an engaged category not yet among the interests is
      put in front and the list cut to the five most recent. */
  function Remember(interests: seq<Category>, cat: Category): (r: seq<Category>)
    ensures 0 < |r| <= |interests| + 1
    ensures cat in r
    ensures cat in interests ==> r == interests
    ensures cat !in interests ==> r[0] == cat && r[1..] == interests[..|r| - 1]
    ensures cat !in interests ==> |r| == if |interests| < RECENT_LIMIT then |interests| + 1 else RECENT_LIMIT
    ensures NoDup(interests) ==> NoDup(r)
    ensures |interests| <= RECENT_LIMIT ==> |r| <= RECENT_LIMIT
  {
    if cat in interests then interests
    else
      var grown := [cat] + interests;
      var r := if |grown| <= RECENT_LIMIT then grown else grown[..RECENT_LIMIT];
      assert r[0] == cat && r[1..] == interests[..|r| - 1];
      r
  }
}

=== FILE: payment.dfy ===
/** The checkout modal: a linear `method -> processing -> success` flow. Paying
    starts a two-second completion timer; when it fires the flow succeeds and
    calls `onConfirm`. Closing unmounts the modal but does not cancel that
    timer. The coupon code is drawn once, when the modal mounts. */
module Payment {

  datatype PayStep = ChoosingMethod | Processing | Success
  datatype PayMethod = Pix | Card

  datatype Checkout = Checkout(step: PayStep, payWith: PayMethod, coupon: string, open: bool, completionPending: bool)

  datatype CheckoutEvent = ChooseMethod(m: PayMethod) | Pay | CompletionFired | Close

  /** The prefix of every coupon code. */
  const COUPON_PREFIX: string := "FLASH-"

  predicate IsBase36Lower(c: char) {
    ('0' <= c <= '9') || ('a' <= c <= 'z')
  }

  predicate IsBase36Upper(c: char) {
    ('0' <= c <= '9') || ('A' <= c <= 'Z')
  }

  /** What `Math.random().toString(36)` can produce: `0`, or `0.` followed by
      lower-case base-36 digits. */
  predicate RandomBase36Text(t: string) {
    t == "0" || (|t| >= 2 && t[..2] == "0." && forall i :: 2 <= i < |t| ==> IsBase36Lower(t[i]))
  }

  /** `String.prototype.substring(from, to)` with `from <= to`: both ends
      are clamped to the string. */
  function Substring(s: string, from: nat, to: nat): (r: string)
    requires from <= to
    ensures |r| <= to - from
  {
    var lo := if from < |s| then from else |s|;
    var hi := if to < |s| then to else |s|;
    s[lo..hi]
  }

  function UpperChar(c: char): char {
    if 'a' <= c <= 'z' then (c as int - 'a' as int + 'A' as int) as char else c
  }

  function Upper(s: string): (r: string)
    ensures |r| == |s|
    ensures forall i :: 0 <= i < |s| ==> r[i] == UpperChar(s[i])
  {
    if s == [] then [] else [UpperChar(s[0])] + Upper(s[1..])
  }

  /** `FLASH-${random.toString(36).substring(2, 8).toUpperCase()}`. */
  function CouponCode(randomText: string): (code: string)
    requires RandomBase36Text(randomText)
    ensures |COUPON_PREFIX| <= |code| <= |COUPON_PREFIX| + 6
    ensures code[..|COUPON_PREFIX|] == COUPON_PREFIX
    ensures forall i :: |COUPON_PREFIX| <= i < |code| ==> IsBase36Upper(code[i])
  {
    var body := Substring(randomText, 2, 8);
    assert randomText == "0" ==> body == [];
    assert randomText != "0" ==> forall i :: 0 <= i < |body| ==> body[i] == randomText[2 + i];
    COUPON_PREFIX + Upper(body)
  }

  /** The modal as it mounts: choosing a method, Pix preselected. */
  function Open(randomText: string): (c: Checkout)
    requires RandomBase36Text(randomText)
    ensures c.step == ChoosingMethod && c.payWith == Pix && c.open && !c.completionPending
  {
    Checkout(ChoosingMethod, Pix, CouponCode(randomText), true, false)
  }

  function Rank(s: PayStep): int {
    match s
    case ChoosingMethod => 0
    case Processing => 1
    case Success => 2
  }

  predicate Valid(c: Checkout) {
    c.completionPending <==> c.step == Processing
  }

  /** One event; the flag says whether `onConfirm` was called. Method choice
      and Pay exist only on the open modal's method screen. */
  function Step(c: Checkout, e: CheckoutEvent): (r: (Checkout, bool))
    requires Valid(c)
    ensures Valid(r.0)
    ensures Rank(r.0.step) >= Rank(c.step)
    ensures r.0.coupon == c.coupon
    ensures r.1 <==> e == CompletionFired && c.step == Processing
    ensures r.1 ==> r.0.step == Success
    ensures r.0.step != c.step ==> Rank(r.0.step) == Rank(c.step) + 1
  {
    match e
    case ChooseMethod(m) =>
      if c.open && c.step == ChoosingMethod then (c.(payWith := m), false) else (c, false)
    case Pay =>
      if c.open && c.step == ChoosingMethod then (c.(step := Processing, completionPending := true), false)
      else (c, false)
    case CompletionFired =>
      if c.completionPending then (c.(step := Success, completionPending := false), true) else (c, false)
    case Close =>
      (c.(open := false), false)
  }

  function Run(c: Checkout, events: seq<CheckoutEvent>): (r: (Checkout, nat))
    requires Valid(c)
    ensures Valid(r.0)
    ensures r.0.coupon == c.coupon
    ensures Rank(r.0.step) >= Rank(c.step)
    decreases |events|
  {
    if events == [] then (c, 0)
    else
      var (c1, fired) := Step(c, events[0]);
      var (c2, n) := Run(c1, events[1..]);
      (c2, n + if fired then 1 else 0)
  }

  /** `onConfirm` fires at most once per modal, never before the flow has
      left the method screen, and exactly when the flow ends in success. */
  lemma {:induction false} ConfirmAtMostOnce(c: Checkout, events: seq<CheckoutEvent>)
    requires Valid(c)
    ensures Run(c, events).1 <= if c.step == Success then 0 else 1
    ensures c.step != Success ==> (Run(c, events).1 == 1 <==> Run(c, events).0.step == Success)
    decreases |events|
  {
    if events != [] {
      var (c1, fired) := Step(c, events[0]);
      ConfirmAtMostOnce(c1, events[1..]);
    }
  }

  function WithoutMethodChoice(events: seq<CheckoutEvent>): seq<CheckoutEvent> {
    if events == [] then []
    else if events[0].ChooseMethod? then WithoutMethodChoice(events[1..])
    else [events[0]] + WithoutMethodChoice(events[1..])
  }

  /** Picking Pix or card changes neither the steps taken nor the confirm
      calls: dropping every method choice gives the same flow. */
  lemma {:induction false} MethodIrrelevant(c: Checkout, events: seq<CheckoutEvent>)
    requires Valid(c)
    ensures Run(c, events).0.step == Run(c, WithoutMethodChoice(events)).0.step
    ensures Run(c, events).0.open == Run(c, WithoutMethodChoice(events)).0.open
    ensures Run(c, events).1 == Run(c, WithoutMethodChoice(events)).1
    decreases |events|
  {
    if events != [] {
      var (c1, _) := Step(c, events[0]);
      if events[0].ChooseMethod? {
        MethodIrrelevant(c1, events[1..]);
        SameFlow(c, c1, WithoutMethodChoice(events[1..]));
      } else {
        MethodIrrelevant(c1, events[1..]);
      }
    }
  }

  /** Two checkouts that differ only in the chosen method behave alike. */
  lemma {:induction false} SameFlow(c: Checkout, d: Checkout, events: seq<CheckoutEvent>)
    requires Valid(c) && Valid(d)
    requires c.step == d.step && c.open == d.open && c.completionPending == d.completionPending
    ensures Run(c, events).0.step == Run(d, events).0.step
    ensures Run(c, events).0.open == Run(d, events).0.open
    ensures Run(c, events).1 == Run(d, events).1
    decreases |events|
  {
    if events != [] {
      SameFlow(Step(c, events[0]).0, Step(d, events[0]).0, events[1..]);
    }
  }

  /** Closing while processing does not cancel the pending completion. */
  lemma CloseDoesNotCancel(randomText: string)
    requires RandomBase36Text(randomText)
    ensures Run(Open(randomText), [Pay, Close, CompletionFired]).1 == 1
    ensures !Run(Open(randomText), [Pay, Close, CompletionFired]).0.open
  {
    var c := Open(randomText);
    var c1 := Step(c, Pay).0;
    var c2 := Step(c1, Close).0;
    assert [Pay, Close, CompletionFired][1..] == [Close, CompletionFired];
    assert [Close, CompletionFired][1..] == [CompletionFired];
    assert [CompletionFired][1..] == [];
  }
}

=== FILE: publisher.dfy ===
/** The author profile sheet: the `@handle` derived from the display name,
    the bio and follower-count fallbacks, and the follow button. */
module Publisher {
  import opened Types
  import opened Text
  import FeedItem

  /** `name.toLowerCase().replace(/\s/g, '')`. */
  function HandleBody(name: string): (body: string)
    ensures NoSpace(body)
    ensures |body| <= |name|
  {
    RemoveSpaces(Lower(name))
  }

  function Handle(name: string): string {
    "@" + HandleBody(name)
  }

  lemma LowerCharKeepsSpace(c: char)
    ensures IsSpace(LowerChar(c)) <==> IsSpace(c)
    ensures LowerChar(LowerChar(c)) == LowerChar(c)
  {
  }

  /** Lower-casing and dropping white space commute, so the handle body is
      the name's visible characters, in order, lower-cased. */
  lemma {:induction false} HandleIsLoweredVisibleChars(s: string)
    ensures HandleBody(s) == Lower(RemoveSpaces(s))
  {
    if s != [] {
      HandleIsLoweredVisibleChars(s[1..]);
      LowerCharKeepsSpace(s[0]);
      assert Lower(s)[1..] == Lower(s[1..]);
      if !IsSpace(s[0]) {
        assert Lower([s[0]] + RemoveSpaces(s[1..]))[1..] == Lower(RemoveSpaces(s[1..]));
      }
    }
  }

  lemma {:induction false} LowerFixed(s: string)
    requires forall i :: 0 <= i < |s| ==> LowerChar(s[i]) == s[i]
    ensures Lower(s) == s
  {
  }

  /** Deriving a handle body from a handle body changes nothing. */
  lemma HandleIdempotent(name: string)
    ensures HandleBody(HandleBody(name)) == HandleBody(name)
  {
    var b := HandleBody(name);
    HandleIsLoweredVisibleChars(name);
    forall i | 0 <= i < |b| ensures LowerChar(b[i]) == b[i] {
      LowerCharKeepsSpace(RemoveSpaces(name)[i]);
    }
    LowerFixed(b);
  }

  const BIO_LEAD: string := "Conteúdo oficial do "
  const BIO_TAIL: string := ". Trazendo as últimas novidades, tendências e análises exclusivas para você."

  /** The bio, or, when it is missing or empty, a template naming the author. */
  function BioText(author: Author): (text: string)
    ensures StringSet(author.bio) ==> text == author.bio.value
    ensures !StringSet(author.bio) ==>
      |BIO_LEAD| + |author.name| <= |text|
      && text[|BIO_LEAD|..|BIO_LEAD| + |author.name|] == author.name
  {
    if StringSet(author.bio) then author.bio.value else BIO_LEAD + author.name + BIO_TAIL
  }

  const FOLLOWERS_FALLBACK: string := "12.5K"

  /** `author.followers || '12.5K'`: a missing or zero count shows the
      fallback; any other count is shown in decimal. */
  function FollowersText(author: Author): string {
    match author.followers
    case Some(n) => if n != 0 then IntToString(n) else FOLLOWERS_FALLBACK
    case None => FOLLOWERS_FALLBACK
  }

  /** The shown count reads back as the author's count exactly when that
      count is present and non-zero; a zero count is hidden like a missing one. */
  lemma FollowersShown(author: Author)
    ensures author.followers.Some? && author.followers.value != 0 ==>
      var t := FollowersText(author);
      |t| > 0
      && (t[0] == '-' ==> forall i :: 1 <= i < |t| ==> IsDigit(t[i]))
      && (t[0] != '-' ==> forall i :: 0 <= i < |t| ==> IsDigit(t[i]))
      && ParseInt(t) == author.followers.value
    ensures author.followers == Some(0) ==> FollowersText(author) == FollowersText(author.(followers := None))
  {
    if author.followers.Some? && author.followers.value != 0 {
      ParseIntToString(author.followers.value);
    }
  }

  function FollowLabel(isFollowing: bool): string {
    if isFollowing then "Seguindo" else "Seguir"
  }

  /** The sheet's button is wired to the card's follow toggle: pressing it
      flips the label and reports a follow. */
  lemma FollowButtonToggles(post: Post, item: FeedItem.Item)
    requires FeedItem.Valid(post, item)
    ensures var (next, out) := FeedItem.Step(post, item, FeedItem.FollowPressed);
      FollowLabel(next.following) != FollowLabel(item.following)
      && out == Some(Interaction(Follow, post.category, None))
  {
  }
}

=== FILE: roulette.dfy ===
/** The reward wheel: eight equal wedges with fixed coin values, a random
    outcome, a decorative rotation that brings the winning wedge under the
    pointer at the top, and a spin-once guard. Angles are integer
    half-degrees (a wedge is 90, half a wedge 45) so that 22.5 degrees is
    exact; the random draws are parameters in [0, 1). */
module Roulette {
  import opened Types

  const SEGMENTS: seq<int> := [10, 50, 20, 100, 30, 10, 80, 40]

  /** Half-degrees in a full turn and in one wedge (360 / 8 = 45 degrees). */
  const TURN: int := 720
  const SEGMENT_ANGLE: int := TURN / |SEGMENTS|

  /** Five extra full turns for show. */
  const EXTRA_SPINS: int := 5 * TURN

  /** `Math.floor(random * segments.length)`. */
  function SegmentIndex(random: real): (i: int)
    requires 0.0 <= random < 1.0
    ensures 0 <= i < |SEGMENTS|
  {
    (random * |SEGMENTS| as real).Floor
  }

  /** The coins a wedge is worth. */
  function Outcome(i: int): (amount: int)
    requires 0 <= i < |SEGMENTS|
    ensures amount in {10, 20, 30, 40, 50, 80, 100}
    ensures amount >= 10
  {
    SEGMENTS[i]
  }

  /** The centre of wedge `i`, clockwise from the top, where its label sits. */
  function WedgeCentre(i: int): int {
    i * SEGMENT_ANGLE + SEGMENT_ANGLE / 2
  }

  /** `extraSpins + (360 - index * segmentAngle) - segmentAngle / 2`. */
  function TargetRotation(i: int): (rot: int)
    requires 0 <= i < |SEGMENTS|
    ensures (WedgeCentre(i) + rot) % TURN == 0
    ensures EXTRA_SPINS <= rot < EXTRA_SPINS + TURN
    ensures 3645 <= rot <= 4275
  {
    EXTRA_SPINS + (TURN - i * SEGMENT_ANGLE) - SEGMENT_ANGLE / 2
  }

  /** `random * segmentAngle * 0.4 - segmentAngle * 0.2`, in degrees. */
  function Jitter(random: real): (j: real)
    requires 0.0 <= random < 1.0
    ensures -9.0 <= j < 9.0
  {
    random * 45.0 * 0.4 - 45.0 * 0.2
  }

  /** The wheel's final CSS rotation in degrees. */
  function FinalRotation(i: int, jitterRandom: real): real
    requires 0 <= i < |SEGMENTS|
    requires 0.0 <= jitterRandom < 1.0
  {
    TargetRotation(i) as real / 2.0 + Jitter(jitterRandom)
  }

  /** After the wheel turns clockwise by the final rotation, the point of the
      wheel under the top pointer is strictly inside wedge `i`, more than
      half the jitter bound away from both of its edges. */
  lemma PointerLandsInWedge(i: int, jitterRandom: real)
    requires 0 <= i < |SEGMENTS|
    requires 0.0 <= jitterRandom < 1.0
    ensures var under := 6.0 * 360.0 - FinalRotation(i, jitterRandom);
      45.0 * i as real + 13.5 < under <= 45.0 * i as real + 31.5
  {
    var j := Jitter(jitterRandom);
    assert TargetRotation(i) == 4275 - 90 * i;
  }

  datatype Color = Yellow | Black

  /** One conic-gradient stop, positions in tenths of a percent. */
  datatype Stop = Stop(color: Color, start: int, end: int)

  function GradientStops(): (stops: seq<Stop>)
    ensures |stops| == |SEGMENTS|
    ensures stops[0].start == 0 && stops[|stops| - 1].end == 1000
    ensures forall i :: 0 <= i < |stops| ==> stops[i].end - stops[i].start == 125
    ensures forall i :: 0 <= i < |stops| - 1 ==> stops[i].end == stops[i + 1].start
    ensures forall i :: 0 <= i < |stops| - 1 ==> stops[i].color != stops[i + 1].color
  {
    seq(|SEGMENTS|, i requires 0 <= i < |SEGMENTS| =>
      Stop(if i % 2 == 0 then Yellow else Black, i * (1000 / |SEGMENTS|), (i + 1) * (1000 / |SEGMENTS|)))
  }

  /** The wheel component's state; `inFlight` is the index chosen by a spin
      whose completion timer has not fired yet. */
  datatype Wheel = Wheel(spinning: bool, claimed: bool, rotation: real, won: Option<int>, inFlight: Option<int>)

  const INITIAL: Wheel := Wheel(false, false, 0.0, None, None)

  predicate Valid(w: Wheel) {
    && (w.inFlight.Some? <==> w.spinning)
    && (w.inFlight.Some? ==> 0 <= w.inFlight.value < |SEGMENTS|)
    && !(w.spinning && w.claimed)
  }

  datatype WheelEvent =
    | SpinPressed(indexRandom: real, jitterRandom: real)
    | SpinTimerFired

  predicate WellFormed(e: WheelEvent) {
    e.SpinPressed? ==> 0.0 <= e.indexRandom < 1.0 && 0.0 <= e.jitterRandom < 1.0
  }

  /** `handleSpin` and its completion timer. The win, when there is one, is
      what is handed to `onSpinComplete`. */
  function Step(w: Wheel, e: WheelEvent): (r: (Wheel, Option<int>))
    requires Valid(w) && WellFormed(e)
    ensures Valid(r.0)
    ensures r.1.Some? ==> r.1.value in SEGMENTS && r.0.claimed && !w.claimed
    ensures (w.spinning || w.claimed) && e.SpinPressed? ==> r == (w, None)
  {
    match e
    case SpinPressed(ir, jr) =>
      if w.spinning || w.claimed then (w, None)
      else
        var i := SegmentIndex(ir);
        (w.(spinning := true, rotation := FinalRotation(i, jr), inFlight := Some(i)), None)
    case SpinTimerFired =>
      match w.inFlight
      case Some(i) =>
        var amount := Outcome(i);
        (w.(spinning := false, claimed := true, won := Some(amount), inFlight := None), Some(amount))
      case None => (w, None)
  }

  function Run(w: Wheel, events: seq<WheelEvent>): (r: (Wheel, seq<int>))
    requires Valid(w)
    requires forall k :: 0 <= k < |events| ==> WellFormed(events[k])
    ensures Valid(r.0)
    ensures w.claimed ==> r.0.claimed
    decreases |events|
  {
    if events == [] then (w, [])
    else
      var (w1, win) := Step(w, events[0]);
      var (w2, wins) := Run(w1, events[1..]);
      (w2, (if win.Some? then [win.value] else []) + wins)
  }

  /** A wheel reports at most one win over its whole life, and only after
      it has not yet been claimed; every reported amount is a wedge value. */
  lemma {:induction false} AtMostOneWin(w: Wheel, events: seq<WheelEvent>)
    requires Valid(w)
    requires forall k :: 0 <= k < |events| ==> WellFormed(events[k])
    ensures |Run(w, events).1| <= if w.claimed then 0 else 1
    ensures forall k :: 0 <= k < |Run(w, events).1| ==> Run(w, events).1[k] in SEGMENTS
    decreases |events|
  {
    if events != [] {
      var (w1, win) := Step(w, events[0]);
      AtMostOneWin(w1, events[1..]);
    }
  }

  lemma SingleWinFromStart(events: seq<WheelEvent>)
    requires forall k :: 0 <= k < |events| ==> WellFormed(events[k])
    ensures |Run(INITIAL, events).1| <= 1
  {
    AtMostOneWin(INITIAL, events);
  }
}

=== FILE: session.dfy ===
/** The app's session: the coin balance and level, the boost flag, the daily
    bonus, the per-post share counters, saved posts, followed authors, the
    user's interest list, the roulette prize waiting for a login, the feed and
    its infinite-scroll fetches. Every handler of the app shell is one event;
    timers, the clock and the content generator's answers arrive as events
    carrying their values, so each transition is a pure function. */
module Session {
  import opened Types
  import opened Text
  import Interests
  import BonusTimer
  import Store
  import FeedItem
  import Roulette
  import Share

  datatype FeedTab = ForYou | Following

  /** What the content generator answered for one fetch. */
  datatype FetchOutcome = Generated(post: Post) | Failed

  datatype Session = Session(
    stats: UserStats,
    bonusClaimed: bool,
    timer: BonusTimer.Timer,
    shareCounts: map<string, int>,
    savedPostIds: set<string>,
    followingAuthors: set<string>,
    userInterests: seq<Category>,
    pendingPoints: int,
    pendingPostId: Option<string>,
    posts: seq<Post>,
    feedTab: FeedTab,
    activePostIndex: int,
    showLogin: bool,
    loginLoading: bool,
    loginsPending: nat,
    picker: Option<seq<Category>>,
    fetches: seq<Category>,
    removals: seq<string>,
    checkout: Store.Checkout)

  datatype Event =
    | Interact(kind: InteractionKind, category: Option<Category>, postId: Option<string>, extra: Option<int>)
    | ScrollSettled(index: nat)
    | FetchCompleted(k: nat, outcome: FetchOutcome, now: nat)
    | SelectTab(tab: FeedTab)
    | Shop(e: Store.StoreEvent)
    | BonusTick
    | BonusClicked
    | LoginSubmitted
    | LoginSucceeded
    | LoginClosed
    | PickerToggled(c: Category)
    | PickerSubmitted
    | RemovalFired

  // ---------------------------------------------------------------------
  // The seeded catalog

  const INITIAL_POSTS: seq<Post> := [
    Post("1", Video, "video-1", Some("thumb-1"), None, Travel, Author("a1", "Nossa Viagem", None, Some(54000)),
         1240, 342, 89, Some(Product("p1", "Pacote Ecoturismo", "product-p1", Travel)), None),
    Post("2", Video, "video-2", Some("thumb-2"), None, Tech, Author("a2", "Tilt UOL", None, Some(120000)),
         3120, 450, 120, Some(Product("p_cam", "Action Cam 4K", "product-p_cam", Tech)), Some(true)),
    Post("3", Carousel, "", None, Some(["slide-3-1", "slide-3-2"]), Tech, Author("a3", "UOL", None, None),
         3400, 890, 500, Some(Product("p2", "Teclado Mecânico RGB", "product-p2", Tech)), None),
    Post("4", Video, "video-4", Some("thumb-4"), None, Sports, Author("a4", "UOL Esporte", None, None),
         560, 80, 20, Some(Product("p_oculos", "Óculos Esportivo UV", "product-p_oculos", Sports)), None),
    Post("roulette_promo", Roulette, "", None, None, Entertainment, Author("uol-flash", "UOL Flash", None, None),
         0, 0, 0, None, None),
    Post("5", Video, "video-5", Some("thumb-5"), None, Food, Author("a5", "VivaBem", None, None),
         2100, 150, 300, Some(Product("p_airfryer", "AirFryer Digital", "product-p_airfryer", Food)), None)
  ]

  const REWARDS: seq<Reward> := [
    Reward("r1", 500, Some(1)),
    Reward("r2", 300, Some(1)),
    Reward("r4", 2500, Some(2)),
    Reward("r5", 5000, Some(2))
  ]

  /** The session as the app mounts. */
  const INITIAL: Session := Session(
    UserStats(120, 3, 1, Some(false)), false, BonusTimer.START, map[], {}, {}, [General],
    0, None, INITIAL_POSTS, ForYou, 0, false, false, 0, None, [], [], Store.IDLE)

  // ---------------------------------------------------------------------
  // Awarding coins

  /** Coins an award of `amount` is worth under the current boost flag. */
  function Boosted(stats: UserStats, amount: int): int {
    if FlagSet(stats.boostActive) then 2 * amount else amount
  }

  /** Credits an award, doubled under boost, and derives the level from the
      new balance. */
  function AddPoints(stats: UserStats, amount: int): (r: UserStats)
    ensures r.coins == stats.coins + Boosted(stats, amount)
    ensures r.level == LevelFor(r.coins)
    ensures r.boostActive == stats.boostActive && r.streakDays == stats.streakDays
    ensures amount > 0 ==> r.coins > stats.coins
  {
    var newCoins := stats.coins + Boosted(stats, amount);
    stats.(coins := newCoins, level := newCoins / 1000 + 1)
  }

  /** `if (points > 0) addPoints(points)`. */
  function Award(s: Session, points: int): (r: Session)
    ensures points > 0 ==> r == s.(stats := AddPoints(s.stats, points))
    ensures points <= 0 ==> r == s
  {
    if points > 0 then s.(stats := AddPoints(s.stats, points)) else s
  }

  // ---------------------------------------------------------------------
  // Lookups

  /** `posts.find(p => p.id === id)`. */
  function FindPost(posts: seq<Post>, id: string): (r: Option<Post>)
    ensures r.None? <==> forall k :: 0 <= k < |posts| ==> posts[k].id != id
    ensures r.Some? ==> exists k :: 0 <= k < |posts| && posts[k] == r.value && r.value.id == id
                                      && (forall j :: 0 <= j < k ==> posts[j].id != id)
  {
    if posts == [] then None
    else if posts[0].id == id then Some(posts[0])
    else
      var r := FindPost(posts[1..], id);
      assert r.Some? ==> exists k :: 1 <= k < |posts| && posts[k] == r.value && r.value.id == id
                          && forall j :: 0 <= j < k ==> posts[j].id != id by {
        if r.Some? {
          var k :| 0 <= k < |posts[1..]| && posts[1..][k] == r.value && r.value.id == id
                    && forall j :: 0 <= j < k ==> posts[1..][j].id != id;
          assert forall j :: 0 <= j < k + 1 ==> posts[j].id != id by {
            forall j | 0 <= j < k + 1 ensures posts[j].id != id {
              if j > 0 { assert posts[j] == posts[1..][j - 1]; }
            }
          }
        }
      }
      r
  }

  /** The first post carrying `id` is an ad. */
  predicate AdView(posts: seq<Post>, postId: Option<string>) {
    StringSet(postId)
    && exists k :: 0 <= k < |posts| && posts[k].id == postId.value && FlagSet(posts[k].isAd)
                    && forall j :: 0 <= j < k ==> posts[j].id != postId.value
  }

  function ViewPoints(posts: seq<Post>, postId: Option<string>): (points: int)
    ensures points == if AdView(posts, postId) then 40 else 5
  {
    if StringSet(postId) then
      match FindPost(posts, postId.value)
      case Some(p) => if FlagSet(p.isAd) then 40 else 5
      case None => 5
    else 5
  }

  /** `shareCounts[postId] || 0`. */
  function ShareCount(m: map<string, int>, id: string): int {
    if id in m then m[id] else 0
  }

  /** Adds a missing element, deletes a present one. */
  function ToggleMember(s: set<string>, x: string): (r: set<string>)
    ensures x in r <==> x !in s
    ensures forall y :: y != x ==> (y in r <==> y in s)
  {
    if x in s then s - {x} else s + {x}
  }

  /** The implicit interest update: every interaction except a view or a
      spin remembers its category. */
  predicate Remembers(kind: InteractionKind, category: Option<Category>) {
    category.Some? && kind != View && kind != Spin
  }

  // ---------------------------------------------------------------------
  // Interactions

  /** `handleInteraction(type, category, postId, extraData)`. The per-kind
      award table: like 10, comment 50, follow 5 (on follow and on unfollow
      alike), a view 40 for an ad and 5 otherwise, a share 100 but only from
      the second share of the same post on, and nothing for saves and spins.
      A spin with a prize stages it and asks for a login instead. */
  function HandleInteraction(s: Session, kind: InteractionKind, category: Option<Category>,
                             postId: Option<string>, extra: Option<int>): (r: Session)
    ensures kind == Like ==> r.stats.coins == s.stats.coins + Boosted(s.stats, 10)
    ensures kind == Comment ==> r.stats.coins == s.stats.coins + Boosted(s.stats, 50)
    ensures kind == Follow ==> r.stats.coins == s.stats.coins + Boosted(s.stats, 5)
    ensures kind == View ==> r.stats.coins == s.stats.coins + Boosted(s.stats, if AdView(s.posts, postId) then 40 else 5)
    ensures kind == Share ==>
              r.stats.coins == s.stats.coins
                + (if StringSet(postId) && ShareCount(s.shareCounts, postId.value) >= 1 then Boosted(s.stats, 100) else 0)
    ensures kind == Save || kind == Spin ==> r.stats == s.stats
    ensures r.stats != s.stats ==> r.stats.level == LevelFor(r.stats.coins) && r.stats.coins > s.stats.coins
    ensures r.stats.boostActive == s.stats.boostActive
    ensures Remembers(kind, category) ==> r.userInterests == Interests.Remember(s.userInterests, category.value)
    ensures !Remembers(kind, category) ==> r.userInterests == s.userInterests
  {
    var s1 := if Remembers(kind, category)
              then s.(userInterests := Interests.Remember(s.userInterests, category.value))
              else s;
    Award(InteractionEffect(s1, kind, postId, extra), InteractionPoints(s1, kind, postId))
  }

  /** The coins an interaction is worth before the boost. */
  function InteractionPoints(s: Session, kind: InteractionKind, postId: Option<string>): (points: int)
    ensures points >= 0
  {
    match kind
    case Like => 10
    case Comment => 50
    case Share => if StringSet(postId) && ShareCount(s.shareCounts, postId.value) >= 1 then 100 else 0
    case View => ViewPoints(s.posts, postId)
    case Spin => 0
    case Save => 0
    case Follow => 5
  }

  /** What an interaction changes besides the balance and the interests: the
      share counter, the saved set, the followed set, or the staged prize. */
  function InteractionEffect(s: Session, kind: InteractionKind, postId: Option<string>, extra: Option<int>): (r: Session)
    ensures kind == Share && StringSet(postId) ==>
              r.shareCounts == s.shareCounts[postId.value := ShareCount(s.shareCounts, postId.value) + 1]
    ensures !(kind == Share && StringSet(postId)) ==> r.shareCounts == s.shareCounts
    ensures kind == Save && StringSet(postId) ==> r.savedPostIds == ToggleMember(s.savedPostIds, postId.value)
    ensures !(kind == Save && StringSet(postId)) ==> r.savedPostIds == s.savedPostIds
    ensures kind == Follow && StringSet(postId) && FindPost(s.posts, postId.value).Some? ==>
              r.followingAuthors == ToggleMember(s.followingAuthors, FindPost(s.posts, postId.value).value.author.id)
    ensures !(kind == Follow && StringSet(postId) && FindPost(s.posts, postId.value).Some?) ==>
              r.followingAuthors == s.followingAuthors
    ensures Stages(kind, postId, extra) ==>
              r.pendingPoints == extra.value && r.pendingPostId == postId && r.showLogin
    ensures !Stages(kind, postId, extra) ==>
              r.pendingPoints == s.pendingPoints && r.pendingPostId == s.pendingPostId && r.showLogin == s.showLogin
    ensures r.(shareCounts := s.shareCounts, savedPostIds := s.savedPostIds, followingAuthors := s.followingAuthors,
               pendingPoints := s.pendingPoints, pendingPostId := s.pendingPostId, showLogin := s.showLogin) == s
  {
    match kind
    case Share =>
      if StringSet(postId) then
        s.(shareCounts := s.shareCounts[postId.value := ShareCount(s.shareCounts, postId.value) + 1])
      else s
    case Spin =>
      if Stages(kind, postId, extra) then s.(pendingPoints := extra.value, pendingPostId := postId, showLogin := true)
      else s
    case Save =>
      if StringSet(postId) then s.(savedPostIds := ToggleMember(s.savedPostIds, postId.value)) else s
    case Follow =>
      if StringSet(postId) then
        (match FindPost(s.posts, postId.value)
         case Some(p) => s.(followingAuthors := ToggleMember(s.followingAuthors, p.author.id))
         case None => s)
      else s
    case _ => s
  }

  /** `if (extraData && postId)`: a spin with a non-zero prize on a known
      post is staged until login. */
  predicate Stages(kind: InteractionKind, postId: Option<string>, extra: Option<int>) {
    kind == Spin && extra.Some? && extra.value != 0 && StringSet(postId)
  }

  // ---------------------------------------------------------------------
  // The feed

  /** The posts of followed authors, in feed order. */
  function FollowedOnly(posts: seq<Post>, following: set<string>): (r: seq<Post>)
    ensures |r| <= |posts|
    ensures forall p :: p in r <==> p in posts && p.author.id in following
    ensures following == {} ==> r == []
  {
    if posts == [] then []
    else (if posts[0].author.id in following then [posts[0]] else []) + FollowedOnly(posts[1..], following)
  }

  /** Filtering is taken piece by piece, so it keeps the feed order. */
  lemma {:induction false} FollowedOnlyAppend(a: seq<Post>, b: seq<Post>, following: set<string>)
    ensures FollowedOnly(a + b, following) == FollowedOnly(a, following) + FollowedOnly(b, following)
  {
    if a == [] {
      assert a + b == b;
    } else {
      assert (a + b)[0] == a[0];
      assert (a + b)[1..] == a[1..] + b;
      FollowedOnlyAppend(a[1..], b, following);
    }
  }

  function Visible(s: Session): (r: seq<Post>)
    ensures s.feedTab == ForYou ==> r == s.posts
    ensures s.feedTab == Following ==> forall p :: p in r <==> p in s.posts && p.author.id in s.followingAuthors
  {
    if s.feedTab == ForYou then s.posts else FollowedOnly(s.posts, s.followingAuthors)
  }

  /** The scroll container is replaced by an empty-state card on an empty
      Following tab, so scrolling and the feed cards exist only otherwise. */
  predicate FeedShown(s: Session) {
    !(s.feedTab == Following && |Visible(s)| == 0)
  }

  /** `userInterests[0] || 'general'`. */
  function PrimaryInterest(interests: seq<Category>): (c: Category)
    ensures |interests| > 0 ==> c == interests[0]
    ensures |interests| == 0 ==> c == General
  {
    if |interests| > 0 then interests[0] else General
  }

  /** `handleScroll`: a new active index, and a content request when it is
      within two posts of the end of the For You feed. */
  function ScrollTo(s: Session, index: nat): (r: Session)
    ensures (FeedShown(s) && index != s.activePostIndex) <==> r.activePostIndex != s.activePostIndex
    ensures r.activePostIndex != s.activePostIndex ==> r.activePostIndex == index
    ensures |r.fetches| == |s.fetches| + 1 <==>
              FeedShown(s) && index != s.activePostIndex && index >= |Visible(s)| - 2 && s.feedTab == ForYou
    ensures |r.fetches| == |s.fetches| + 1 ==> r.fetches == s.fetches + [PrimaryInterest(s.userInterests)]
    ensures |r.fetches| != |s.fetches| + 1 ==> r.fetches == s.fetches
    ensures r.(activePostIndex := s.activePostIndex, fetches := s.fetches) == s
  {
    if FeedShown(s) && index != s.activePostIndex then
      var s1 := s.(activePostIndex := index);
      if index >= |Visible(s)| - 2 && s.feedTab == ForYou
      then s1.(fetches := s1.fetches + [PrimaryInterest(s.userInterests)])
      else s1
    else s
  }

  const FALLBACK_PREFIX: string := "fallback-"

  /** The post shown when generation fails. */
  function FallbackPost(now: nat): Post {
    Post(FALLBACK_PREFIX + NatToString(now), Image, "fallback-image", None, None, General,
         Author("uol-travel", "Nossa Viagem", None, None), 42, 5, 1, None, None)
  }

  /** The post a finished fetch appends: a generated post is stamped with the
      clock and the requested category; a failure yields the fallback. */
  function NewPost(outcome: FetchOutcome, category: Category, now: nat): (p: Post)
    ensures outcome.Generated? ==> p.category == category && p.id == NatToString(now)
    ensures outcome.Generated? ==> p.(id := outcome.post.id, category := outcome.post.category) == outcome.post
    ensures outcome.Failed? ==> p == FallbackPost(now) && p.category == General
  {
    match outcome
    case Generated(post) => post.(id := NatToString(now), category := category)
    case Failed => FallbackPost(now)
  }

  lemma StampInjective(n1: nat, n2: nat)
    requires NatToString(n1) == NatToString(n2)
    ensures n1 == n2
  {
    ParseNatToString(n1);
    ParseNatToString(n2);
  }

  /** Posts created at different clock readings, or one generated and one
      fallback, never share an id. */
  lemma NewPostIdsDistinct(o1: FetchOutcome, c1: Category, n1: nat, o2: FetchOutcome, c2: Category, n2: nat)
    requires n1 != n2 || o1.Generated? != o2.Generated?
    ensures NewPost(o1, c1, n1).id != NewPost(o2, c2, n2).id
  {
    var id1 := NewPost(o1, c1, n1).id;
    var id2 := NewPost(o2, c2, n2).id;
    var t1 := NatToString(n1);
    var t2 := NatToString(n2);
    if o1.Generated? && o2.Generated? {
      if id1 == id2 {
        StampInjective(n1, n2);
      }
    } else if o1.Failed? && o2.Failed? {
      assert id1 == FALLBACK_PREFIX + t1 && id2 == FALLBACK_PREFIX + t2;
      if id1 == id2 {
        assert t1 == id1[|FALLBACK_PREFIX|..];
        assert t2 == id2[|FALLBACK_PREFIX|..];
        StampInjective(n1, n2);
      }
    } else if o1.Generated? {
      assert id1[0] == t1[0] && IsDigit(t1[0]);
      assert id2[0] == 'f';
    } else {
      assert id2[0] == t2[0] && IsDigit(t2[0]);
      assert id1[0] == 'f';
    }
  }

  /** The `k`-th outstanding request completes: it appends exactly one post
      and is no longer outstanding. */
  function CompleteFetch(s: Session, k: nat, outcome: FetchOutcome, now: nat): (r: Session)
    ensures k < |s.fetches| ==> |r.posts| == |s.posts| + 1 && r.posts[..|s.posts|] == s.posts
    ensures k < |s.fetches| ==> r.posts[|s.posts|] == NewPost(outcome, s.fetches[k], now)
    ensures k < |s.fetches| ==> r.fetches == s.fetches[..k] + s.fetches[k + 1..]
    ensures k < |s.fetches| ==> r.(posts := s.posts, fetches := s.fetches) == s
    ensures k >= |s.fetches| ==> r == s
  {
    if k < |s.fetches| then
      s.(posts := s.posts + [NewPost(outcome, s.fetches[k], now)], fetches := s.fetches[..k] + s.fetches[k + 1..])
    else s
  }

  // ---------------------------------------------------------------------
  // Store hand-offs

  /** `handleRedeem` with its guard read from the current statistics:
      deducts the cost when the balance and level allow it, so the balance
      never goes below zero. The level is left as it was. */
  function RedeemReward(s: Session, reward: Reward): (r: Session)
    ensures !Store.IsLocked(s.stats, reward) ==> r.stats == s.stats.(coins := s.stats.coins - reward.cost)
    ensures Store.IsLocked(s.stats, reward) ==> r == s
    ensures s.stats.coins >= 0 ==> r.stats.coins >= 0
    ensures r.stats.level == s.stats.level && r.stats.boostActive == s.stats.boostActive
    ensures r.(stats := s.stats) == s
  {
    if s.stats.coins >= reward.cost && s.stats.level >= LevelRequired(reward)
    then s.(stats := s.stats.(coins := s.stats.coins - reward.cost))
    else s
  }

  /** `handleRedeem` as the app runs it: the guard reads `seen`, the
      statistics of the render in which Pay was pressed, while the deduction
      applies to the current balance. */
  function RedeemAsWritten(s: Session, reward: Reward, seen: UserStats): (r: Session)
    ensures !Store.IsLocked(seen, reward) ==> r == s.(stats := s.stats.(coins := s.stats.coins - reward.cost))
    ensures Store.IsLocked(seen, reward) ==> r == s
  {
    if seen.coins >= reward.cost && seen.level >= LevelRequired(reward)
    then s.(stats := s.stats.(coins := s.stats.coins - reward.cost))
    else s
  }

  /** Carries out what the store asks: `handleActivateBoost` sets the flag,
      and a redemption goes through the guarded `RedeemReward`. */
  function Apply(s: Session, eff: Store.Effect): Session {
    match eff
    case NoEffect => s
    case ActivateBoost => s.(stats := s.stats.(boostActive := Some(true)))
    case RedeemReward(reward, _) => RedeemReward(s, reward)
  }

  /** One store event: the checkout moves, and a firing completion reaches
      the session. */
  function ShopStep(s: Session, e: Store.StoreEvent): Session {
    var (c, eff) := Store.StoreStep(s.stats, s.checkout, e);
    Apply(s.(checkout := c), eff)
  }

  /** The event is the timer of an outstanding payment. */
  predicate Completes(s: Session, e: Event) {
    e.Shop? && e.e.CompletionFired? && e.e.k < |s.checkout.pending|
  }

  /** `Step` with the redemption as written: a completion's guard reads the
      statistics captured when its Pay was pressed. */
  function StepAsWritten(s: Session, e: Event): (r: Session)
    ensures !Completes(s, e) ==> r == Step(s, e)
    ensures Completes(s, e) && s.checkout.pending[e.e.k].reward.id != Store.BOOST_ID ==>
              var p := s.checkout.pending[e.e.k];
              r.stats == (if Store.IsLocked(p.seen, p.reward) then s.stats
                          else s.stats.(coins := s.stats.coins - p.reward.cost))
  {
    if Completes(s, e) then
      var (c, eff) := Store.StoreStep(s.stats, s.checkout, e.e);
      if eff.RedeemReward? then RedeemAsWritten(s.(checkout := c), eff.r, eff.seen)
      else Apply(s.(checkout := c), eff)
    else Step(s, e)
  }

  // ---------------------------------------------------------------------
  // The whole session

  function Step(s: Session, e: Event): Session {
    match e
    case Interact(kind, category, postId, extra) => HandleInteraction(s, kind, category, postId, extra)
    case ScrollSettled(index) => ScrollTo(s, index)
    case FetchCompleted(k, outcome, now) => CompleteFetch(s, k, outcome, now)
    case SelectTab(tab) => s.(feedTab := tab)
    case Shop(e) => ShopStep(s, e)
    case BonusTick =>
      // the countdown is unmounted once the bonus is claimed
      if !s.bonusClaimed then s.(timer := BonusTimer.Tick(s.timer)) else s
    case BonusClicked =>
      if !s.bonusClaimed && BonusTimer.Click(s.timer)
      then s.(stats := AddPoints(s.stats, 500), bonusClaimed := true)
      else s
    case LoginSubmitted =>
      // the submit button is disabled while the simulated request runs
      if s.showLogin && !s.loginLoading then s.(loginLoading := true, loginsPending := s.loginsPending + 1) else s
    case LoginSucceeded =>
      // the delayed success callback runs even if the modal was closed meanwhile
      if s.loginsPending > 0 then
        s.(loginsPending := s.loginsPending - 1, showLogin := false, loginLoading := false,
           picker := if s.picker.None? then Some(Interests.INITIAL_SELECTION) else s.picker)
      else s
    case LoginClosed =>
      if s.showLogin then s.(showLogin := false, loginLoading := false) else s
    case PickerToggled(c) =>
      if s.picker.Some? then s.(picker := Some(Interests.Toggle(s.picker.value, c))) else s
    case PickerSubmitted =>
      if s.picker.Some? then ConfirmInterests(s, Interests.Submit(s.picker.value)) else s
    case RemovalFired =>
      if |s.removals| > 0 then
        s.(posts := WithoutId(s.posts, s.removals[0]), pendingPostId := None, removals := s.removals[1..])
      else s
  }

  /** `handleInterestsConfirmed`: stores the confirmed list, closes the picker,
      and pays out a staged roulette prize, scheduling its post's removal. */
  function ConfirmInterests(s: Session, chosen: seq<Category>): (r: Session)
    requires s.picker.Some?
    ensures r.userInterests == chosen && r.picker.None?
    ensures s.pendingPoints > 0 ==> r.stats == AddPoints(s.stats, s.pendingPoints) && r.pendingPoints == 0
    ensures s.pendingPoints <= 0 ==> r.stats == s.stats && r.pendingPoints == s.pendingPoints
    ensures s.pendingPoints > 0 && StringSet(s.pendingPostId) ==> r.removals == s.removals + [s.pendingPostId.value]
    ensures !(s.pendingPoints > 0 && StringSet(s.pendingPostId)) ==> r.removals == s.removals
    ensures r.posts == s.posts && r.pendingPostId == s.pendingPostId && r.bonusClaimed == s.bonusClaimed
  {
    var s1 := s.(userInterests := chosen, picker := None);
    if s.pendingPoints > 0 then
      var s2 := s1.(stats := AddPoints(s1.stats, s.pendingPoints), pendingPoints := 0);
      if StringSet(s.pendingPostId) then s2.(removals := s2.removals + [s.pendingPostId.value]) else s2
    else s1
  }

  /** `posts.filter(p => p.id !== id)`. */
  function WithoutId(posts: seq<Post>, id: string): (r: seq<Post>)
    ensures |r| <= |posts|
    ensures forall p :: p in r <==> p in posts && p.id != id
  {
    if posts == [] then []
    else (if posts[0].id != id then [posts[0]] else []) + WithoutId(posts[1..], id)
  }

  /** Posts none of which carries the id come through unchanged. */
  lemma {:induction false} WithoutIdKeepsAll(posts: seq<Post>, id: string)
    requires forall k :: 0 <= k < |posts| ==> posts[k].id != id
    ensures WithoutId(posts, id) == posts
  {
    if posts != [] {
      assert posts[0].id != id;
      WithoutIdKeepsAll(posts[1..], id);
      assert posts == [posts[0]] + posts[1..];
    }
  }

  /** Filtering is taken piece by piece, so the kept posts stay in feed
      order. */
  lemma {:induction false} WithoutIdAppend(a: seq<Post>, b: seq<Post>, id: string)
    ensures WithoutId(a + b, id) == WithoutId(a, id) + WithoutId(b, id)
  {
    if a == [] {
      assert a + b == b;
    } else {
      assert (a + b)[0] == a[0];
      assert (a + b)[1..] == a[1..] + b;
      WithoutIdAppend(a[1..], b, id);
    }
  }

  /** When one post carries the id, filtering cuts exactly that post out and
      leaves the others where they were. */
  lemma WithoutIdDeletesOne(posts: seq<Post>, id: string, k: nat)
    requires k < |posts| && posts[k].id == id
    requires forall j :: 0 <= j < |posts| && j != k ==> posts[j].id != id
    ensures WithoutId(posts, id) == posts[..k] + posts[k + 1..]
  {
    var front, back := posts[..k], posts[k + 1..];
    assert posts == front + ([posts[k]] + back);
    WithoutIdAround(front, posts[k], back, id);
  }

  lemma WithoutIdAround(front: seq<Post>, x: Post, back: seq<Post>, id: string)
    requires x.id == id
    requires forall j :: 0 <= j < |front| ==> front[j].id != id
    requires forall j :: 0 <= j < |back| ==> back[j].id != id
    ensures WithoutId(front + ([x] + back), id) == front + back
  {
    WithoutIdAppend(front, [x] + back, id);
    WithoutIdKeepsAll(front, id);
    WithoutIdKeepsAll(back, id);
    assert ([x] + back)[1..] == back;
    assert WithoutId([x] + back, id) == WithoutId(back, id);
  }


  function Run(s: Session, events: seq<Event>): Session
    decreases |events|
  {
    if events == [] then s else Run(Step(s, events[0]), events[1..])
  }

  // ---------------------------------------------------------------------
  // Invariants

  /** What every reachable session keeps: a non-negative balance, a level at
      least the one the balance earns (redeeming does not lower it), a
      non-empty interest list without repeats, and a well-formed countdown. */
  predicate Inv(s: Session) {
    s.stats.coins >= 0
    && s.stats.level >= LevelFor(s.stats.coins)
    && |s.userInterests| > 0 && Interests.NoDup(s.userInterests)
    && (s.picker.Some? ==> Interests.NoDup(s.picker.value))
    && BonusTimer.Valid(s.timer)
    && (s.loginLoading ==> s.showLogin)
    && CostsNonNegative(s.checkout)
  }

  /** Every reward in checkout costs coins, never pays them. */
  predicate CostsNonNegative(c: Store.Checkout) {
    (c.selected.Some? ==> c.selected.value.cost >= 0)
    && forall k :: 0 <= k < |c.pending| ==> c.pending[k].reward.cost >= 0
  }

  /** The rewards the store offers cost coins, never pay them. */
  predicate WellFormed(e: Event) {
    e.Shop? && e.e.ClickReward? ==> e.e.r.cost >= 0
  }

  lemma InitialInv()
    ensures Inv(INITIAL)
  {
  }

  lemma StepInv(s: Session, e: Event)
    requires Inv(s) && WellFormed(e)
    ensures Inv(Step(s, e))
  {
    if e.Shop? {
      ShopInv(s, e.e);
    }
  }

  /** The checkout keeps costs non-negative, and a completion goes through
      the guarded redemption, so the balance stays non-negative. */
  lemma ShopInv(s: Session, e: Store.StoreEvent)
    requires Inv(s) && WellFormed(Shop(e))
    ensures Inv(ShopStep(s, e))
  {
    var (c, eff) := Store.StoreStep(s.stats, s.checkout, e);
    assert CostsNonNegative(c) by {
      if e.CompletionFired? && e.k < |s.checkout.pending| {
        assert c.pending == s.checkout.pending[..e.k] + s.checkout.pending[e.k + 1..];
      }
    }
    assert Inv(s.(checkout := c));
  }

  lemma {:induction false} RunInv(s: Session, events: seq<Event>)
    requires Inv(s)
    requires forall k :: 0 <= k < |events| ==> WellFormed(events[k])
    ensures Inv(Run(s, events))
    decreases |events|
  {
    if events != [] {
      StepInv(s, events[0]);
      RunInv(Step(s, events[0]), events[1..]);
    }
  }

  /** Every reward of the catalog is well formed, so store redemptions keep
      the invariant. */
  lemma CatalogRedemptionsWellFormed(k: nat)
    requires k < |REWARDS|
    ensures WellFormed(Shop(Store.ClickReward(REWARDS[k])))
  {
  }

  /** Only a completing checkout lowers the balance, and then by exactly the
      cost of the reward it was paid for. */
  lemma CoinsOnlyFallOnRedeem(s: Session, e: Event)
    requires Inv(s)
    ensures !Completes(s, e) ==> Step(s, e).stats.coins >= s.stats.coins
    ensures Completes(s, e) ==> Step(s, e).stats.coins == s.stats.coins
                                || Step(s, e).stats.coins == s.stats.coins - s.checkout.pending[e.e.k].reward.cost
  {
  }

  // ---------------------------------------------------------------------
  // The daily bonus

  function Repeat(e: Event, n: nat): (r: seq<Event>)
    ensures |r| == n && forall k :: 0 <= k < n ==> r[k] == e
  {
    if n == 0 then [] else [e] + Repeat(e, n - 1)
  }

  /** Ticks move only the countdown while the bonus is unclaimed. */
  lemma {:induction false} RunTicks(s: Session, n: nat)
    requires !s.bonusClaimed
    ensures Run(s, Repeat(BonusTick, n)) == s.(timer := BonusTimer.Ticks(s.timer, n))
    decreases n
  {
    if n > 0 {
      assert Repeat(BonusTick, n)[1..] == Repeat(BonusTick, n - 1);
      RunTicks(Step(s, BonusTick), n - 1);
    }
  }

  /** From the start of a session the gift pays out exactly when it is
      clicked after the full sixty-second countdown, and it pays 500 coins. */
  lemma BonusAfterCountdown(n: nat)
    ensures var s := Run(INITIAL, Repeat(BonusTick, n) + [BonusClicked]);
      (s.bonusClaimed <==> n >= BonusTimer.DURATION)
      && s.stats.coins == INITIAL.stats.coins + (if n >= BonusTimer.DURATION then 500 else 0)
  {
    RunAppend(INITIAL, Repeat(BonusTick, n), [BonusClicked]);
    RunTicks(INITIAL, n);
    BonusTimer.ClaimAfterCountdown(n);
  }

  lemma {:induction false} RunAppend(s: Session, a: seq<Event>, b: seq<Event>)
    ensures Run(s, a + b) == Run(Run(s, a), b)
    decreases |a|
  {
    if a == [] {
      assert a + b == b;
    } else {
      assert (a + b)[0] == a[0];
      assert (a + b)[1..] == a[1..] + b;
      RunAppend(Step(s, a[0]), a[1..], b);
    }
  }

  lemma RunSteps2(s: Session, e1: Event, e2: Event)
    ensures Run(s, [e1, e2]) == Step(Step(s, e1), e2)
  {
    assert [e1, e2][1..] == [e2];
    assert [e2][1..] == [];
    assert Run(s, [e1, e2]) == Run(Step(s, e1), [e2]);
    assert Run(Step(s, e1), [e2]) == Run(Step(Step(s, e1), e2), []);
  }

  lemma RunSteps4(s: Session, e1: Event, e2: Event, e3: Event, e4: Event)
    ensures Run(s, [e1, e2, e3, e4]) == Step(Step(Step(Step(s, e1), e2), e3), e4)
  {
    assert [e1, e2, e3, e4][1..] == [e2, e3, e4];
    assert [e2, e3, e4][1..] == [e3, e4];
    RunSteps2(Step(Step(s, e1), e2), e3, e4);
  }

  /** The number of steps of a run that claim the bonus. */
  function BonusClaims(s: Session, events: seq<Event>): nat
    decreases |events|
  {
    if events == [] then 0
    else
      var s1 := Step(s, events[0]);
      (if !s.bonusClaimed && s1.bonusClaimed then 1 else 0) + BonusClaims(s1, events[1..])
  }

  /** The bonus is claimed at most once in any run, and a claim pays 500
      coins, 1000 under boost. */
  lemma {:induction false} BonusAtMostOnce(s: Session, events: seq<Event>)
    ensures BonusClaims(s, events) <= if s.bonusClaimed then 0 else 1
    ensures Run(s, events).bonusClaimed == (s.bonusClaimed || BonusClaims(s, events) == 1)
    decreases |events|
  {
    if events != [] {
      BonusAtMostOnce(Step(s, events[0]), events[1..]);
    }
  }

  lemma BonusPays(s: Session)
    requires !s.bonusClaimed && BonusTimer.Click(s.timer)
    ensures Step(s, BonusClicked).bonusClaimed
    ensures Step(s, BonusClicked).stats.coins == s.stats.coins + (if FlagSet(s.stats.boostActive) then 1000 else 500)
  {
  }

  // ---------------------------------------------------------------------
  // The roulette prize behind the login

  /** Winning on the wheel, logging in and confirming interests pays the
      prize once, resets the staging, and schedules the wheel post's removal. */
  lemma PrizeAfterLogin(s: Session, cat: Category, id: string, amount: int)
    requires Inv(s) && !s.showLogin && s.loginsPending == 0 && s.picker.None?
    requires id != "" && amount > 0
    ensures var r := Run(s, [Interact(Spin, Some(cat), Some(id), Some(amount)), LoginSubmitted, LoginSucceeded, PickerSubmitted]);
      r.stats.coins == s.stats.coins + Boosted(s.stats, amount)
      && r.pendingPoints == 0
      && r.removals == s.removals + [id]
      && r.userInterests == [General]
      && !r.showLogin && r.picker.None?
  {
    var s1 := Step(s, Interact(Spin, Some(cat), Some(id), Some(amount)));
    var s2 := Step(s1, LoginSubmitted);
    var s3 := Step(s2, LoginSucceeded);
    var s4 := Step(s3, PickerSubmitted);
    assert s1.pendingPoints == amount && s1.showLogin && s1.stats == s.stats;
    assert s3.picker == Some([]) && s3.pendingPoints == amount && s3.pendingPostId == Some(id);
    RunSteps4(s, Interact(Spin, Some(cat), Some(id), Some(amount)), LoginSubmitted, LoginSucceeded, PickerSubmitted);
  }

  /** Closing the login keeps the prize staged and the balance unchanged. */
  lemma PrizeWaitsForLogin(s: Session, cat: Category, id: string, amount: int)
    requires id != "" && amount > 0
    ensures var r := Run(s, [Interact(Spin, Some(cat), Some(id), Some(amount)), LoginClosed]);
      r.stats == s.stats && r.pendingPoints == amount && r.pendingPostId == Some(id) && !r.showLogin
  {
    var s1 := Step(s, Interact(Spin, Some(cat), Some(id), Some(amount)));
    assert s1.pendingPoints == amount && s1.showLogin && s1.stats == s.stats;
    RunSteps2(s, Interact(Spin, Some(cat), Some(id), Some(amount)), LoginClosed);
  }

  /** A second confirmation, without a new spin, pays nothing more and
      schedules no second removal. */
  lemma PrizePaidOnce(s: Session, first: seq<Category>, again: seq<Category>)
    requires s.picker.Some?
    ensures var r := ConfirmInterests(s, first);
      var r2 := ConfirmInterests(r.(picker := Some(again)), again);
      r.pendingPoints <= 0 && r2.stats == r.stats && r2.removals == r.removals
  {
  }

  /** The scheduled removal takes the wheel post out of the feed. */
  lemma RemovalDropsPost(s: Session, k: nat)
    requires |s.removals| > 0
    ensures forall p :: p in Step(s, RemovalFired).posts <==> p in s.posts && p.id != s.removals[0]
    ensures Step(s, RemovalFired).pendingPostId.None?
    ensures k < |s.posts| && s.posts[k].id == s.removals[0]
            && (forall j :: 0 <= j < |s.posts| && j != k ==> s.posts[j].id != s.removals[0]) ==>
              Step(s, RemovalFired).posts == s.posts[..k] + s.posts[k + 1..]
  {
    if k < |s.posts| && s.posts[k].id == s.removals[0]
       && (forall j :: 0 <= j < |s.posts| && j != k ==> s.posts[j].id != s.removals[0]) {
      WithoutIdDeletesOne(s.posts, s.removals[0], k);
    }
  }

  // ---------------------------------------------------------------------
  // Store scenarios

  /** A reward the store's button offers to redeem is one the handler
      deducts, and a locked one leaves the session as it was. */
  lemma RedeemMatchesButton(s: Session, reward: Reward)
    ensures Store.ButtonLabel(s.stats, reward).RedeemLabel? ==>
              RedeemReward(s, reward).stats.coins == s.stats.coins - reward.cost
    ensures !Store.ButtonLabel(s.stats, reward).RedeemLabel? ==> RedeemReward(s, reward) == s
  {
  }

  /** Redeeming 500 coins at a balance of 120 is refused; at 2600 and level
      3, a level-2 reward of 500 leaves 2100 and level 3. */
  lemma RedeemExamples()
    ensures RedeemReward(INITIAL, REWARDS[0]) == INITIAL
    ensures var s := INITIAL.(stats := UserStats(2600, 3, 3, Some(false)));
      RedeemReward(s, Reward("x", 500, Some(2))).stats == UserStats(2100, 3, 3, Some(false))
  {
  }

  /** Selecting a reward the button offers, paying and closing the modal
      still redeems it when the timer fires. */
  lemma CheckoutRedeems(s: Session, r: Reward)
    requires s.checkout.selected.None? && r.id != Store.BOOST_ID
    requires Store.ButtonLabel(s.stats, r).RedeemLabel?
    ensures var s1 := Step(s, Shop(Store.ClickReward(r)));
      var s2 := Step(s1, Shop(Store.Pay));
      var s3 := Step(s2, Shop(Store.ClosePayment));
      var s4 := Step(s3, Shop(Store.CompletionFired(|s.checkout.pending|)));
      s3.checkout.selected.None?
      && s4.stats == s.stats.(coins := s.stats.coins - r.cost) && s4.checkout.pending == s.checkout.pending
  {
    Store.ClosedCheckoutStillRedeems(s.stats, s.checkout, r);
  }

  /** Buying the boost in the store flips the flag and costs no coins, and
      awards afterwards are doubled. */
  lemma BoostPurchase(s: Session)
    requires !FlagSet(s.stats.boostActive) && s.checkout == Store.IDLE
    ensures var s1 := Step(s, Shop(Store.BuyBoost));
      var s2 := Step(s1, Shop(Store.Pay));
      var r := Step(s2, Shop(Store.CompletionFired(0)));
      r.stats.coins == s.stats.coins && FlagSet(r.stats.boostActive) && r.checkout == Store.IDLE
      && Step(r, Interact(Like, None, None, None)).stats.coins == s.stats.coins + 20
  {
    Store.BoostNeverRedeems(s.stats);
  }

  /** Two checkouts of the same reward opened one after the other, before
      the first completes, both pass a guard that reads the balance seen at
      Pay: as written, a balance of exactly the cost ends below zero. The
      guarded redemption refuses the second and ends at zero. */
  lemma StaleCheckOverdraws(s: Session, r: Reward)
    requires s.checkout == Store.IDLE && r.id != Store.BOOST_ID && r.cost > 0
    requires s.stats.coins == r.cost && s.stats.level >= LevelRequired(r)
    ensures var s1 := Step(s, Shop(Store.ClickReward(r)));
      var s2 := Step(s1, Shop(Store.Pay));
      var s3 := Step(s2, Shop(Store.ClosePayment));
      var s4 := Step(s3, Shop(Store.ClickReward(r)));
      var s5 := Step(s4, Shop(Store.Pay));
      var fire := Shop(Store.CompletionFired(0));
      StepAsWritten(StepAsWritten(s5, fire), fire).stats.coins == -r.cost
      && Step(Step(s5, fire), fire).stats.coins == 0
  {
    TwoCheckoutsPaid(s, r);
    var s5 := Step(Step(Step(Step(Step(s, Shop(Store.ClickReward(r))), Shop(Store.Pay)), Shop(Store.ClosePayment)),
                        Shop(Store.ClickReward(r))), Shop(Store.Pay));
    var fire := Shop(Store.CompletionFired(0));
    var w1 := StepAsWritten(s5, fire);
    assert w1.checkout.pending == [Store.Pending(r, s.stats)];
    var c1 := Step(s5, fire);
    assert c1.checkout.pending == [Store.Pending(r, s.stats)] && c1.stats.coins == 0;
  }

  /** Selecting, paying, closing, selecting and paying again leaves two
      completions of the same reward outstanding, both holding the balance
      seen before either fires. */
  lemma TwoCheckoutsPaid(s: Session, r: Reward)
    requires s.checkout == Store.IDLE && !Store.IsLocked(s.stats, r) && r.cost >= 0
    ensures var s1 := Step(s, Shop(Store.ClickReward(r)));
      var s2 := Step(s1, Shop(Store.Pay));
      var s3 := Step(s2, Shop(Store.ClosePayment));
      var s4 := Step(s3, Shop(Store.ClickReward(r)));
      var s5 := Step(s4, Shop(Store.Pay));
      s5.stats == s.stats
      && s5.checkout == Store.Checkout(Some(r), true, [Store.Pending(r, s.stats), Store.Pending(r, s.stats)])
  {
    var s2 := Step(Step(s, Shop(Store.ClickReward(r))), Shop(Store.Pay));
    assert s2.stats == s.stats && s2.checkout == Store.Checkout(Some(r), true, [Store.Pending(r, s.stats)]);
    var s3 := Step(s2, Shop(Store.ClosePayment));
    assert s3.stats == s.stats && s3.checkout == Store.Checkout(None, false, [Store.Pending(r, s.stats)]);
  }


  // ---------------------------------------------------------------------
  // Feed scenarios

  /** Sharing a post pays nothing the first time and 100 from then on. */
  lemma FirstShareFree(s: Session, id: string)
    requires id != "" && id !in s.shareCounts && !FlagSet(s.stats.boostActive)
    ensures var s1 := Step(s, Interact(Share, None, Some(id), None));
      s1.stats.coins == s.stats.coins
      && Step(s1, Interact(Share, None, Some(id), None)).stats.coins == s.stats.coins + 100
  {
  }

  /** Following nobody leaves the Following tab empty. */
  lemma FollowingEmptyWithoutFollows(s: Session)
    requires s.feedTab == Following && s.followingAuthors == {}
    ensures Visible(s) == [] && !FeedShown(s)
  {
  }

  /** The first completed view of the catalog's ad pays 40; of any other
      catalog post, 5. */
  lemma CatalogViewPoints(s: Session)
    requires s.posts == INITIAL_POSTS && !FlagSet(s.stats.boostActive)
    ensures Step(s, Interact(View, None, Some("2"), None)).stats.coins == s.stats.coins + 40
    ensures Step(s, Interact(View, None, Some("1"), None)).stats.coins == s.stats.coins + 5
  {
    assert FindPost(INITIAL_POSTS, "2") == Some(INITIAL_POSTS[1]);
    assert FindPost(INITIAL_POSTS, "1") == Some(INITIAL_POSTS[0]);
  }

  /** The seeded videos carry thumbnails, so their share card shows the
      thumbnail; the seeded carousel shows its first slide. */
  lemma CatalogShareImages()
    ensures Share.DisplayImage(INITIAL_POSTS[0]) == INITIAL_POSTS[0].thumbnailUrl.value
    ensures Share.DisplayImage(INITIAL_POSTS[2]) == INITIAL_POSTS[2].slides.value[0]
  {
  }

  /** Scrolling to the second-to-last For You post asks for one more post
      in the user's primary interest, and its answer appends exactly one. */
  lemma ScrollNearEndFetches(s: Session, outcome: FetchOutcome, now: nat)
    requires Inv(s) && s.feedTab == ForYou && |s.posts| >= 2 && s.activePostIndex != |s.posts| - 2
    ensures var s1 := Step(s, ScrollSettled(|s.posts| - 2));
      s1.fetches == s.fetches + [s.userInterests[0]]
      && var s2 := Step(s1, FetchCompleted(|s.fetches|, outcome, now));
      |s2.posts| == |s.posts| + 1 && s2.fetches == s.fetches
      && (outcome.Generated? ==> s2.posts[|s.posts|].category == s.userInterests[0])
  {
    var s1 := Step(s, ScrollSettled(|s.posts| - 2));
    assert (s.fetches + [s.userInterests[0]])[..|s.fetches|] == s.fetches;
  }

  // ---------------------------------------------------------------------
  // Cards wired to the session

  /** A card reports to `handleInteraction` with its own post id. */
  function Deliver(s: Session, post: Post, out: Option<Interaction>): Session {
    match out
    case Some(i) => Step(s, Interact(i.kind, Some(i.category), Some(post.id), i.amount))
    case None => s
  }

  /** Pressing a card's like button twice pays the like once. */
  lemma DoubleLikePaysOnce(s: Session, post: Post, item: FeedItem.Item)
    requires FeedItem.Valid(post, item) && !item.liked
    ensures var (i1, o1) := FeedItem.Step(post, item, FeedItem.LikePressed);
      var (_, o2) := FeedItem.Step(post, i1, FeedItem.LikePressed);
      Deliver(Deliver(s, post, o1), post, o2).stats.coins == s.stats.coins + Boosted(s.stats, 10)
  {
  }

  /** A prize from the wheel reaches the session staged behind the login,
      with the balance untouched. */
  lemma WheelPrizeStaged(s: Session, post: Post, item: FeedItem.Item, amount: int)
    requires FeedItem.Valid(post, item) && post.id != "" && amount in Roulette.SEGMENTS
    ensures var r := Deliver(s, post, FeedItem.Step(post, item, FeedItem.RouletteWon(amount)).1);
      r.stats == s.stats && r.pendingPoints == amount && r.pendingPostId == Some(post.id) && r.showLogin
  {
  }
}

=== FILE: share.dfy ===
/** The share card: which image it shows for a post, and the post link its
    QR code encodes. Rendering the card and the native share sheet are
    browser calls and are not modelled. */
module Share {
  import opened Types

  /** The stock picture used for a video with neither thumbnail nor product. */
  const DEFAULT_SHARE_IMAGE: string := "https://images.unsplash.com/photo-1611162617474-5b21e879e113?auto=format&fit=crop&w=1080&q=80"

  const POST_URL_PREFIX: string := "https://uol.com.br/flash/post/"

  /** JavaScript's `a || b || ... || last` over optional strings: the first
      operand that is present and non-empty, else `last`. */
  function FirstTruthy(xs: seq<Option<string>>, last: string): (r: string)
    ensures r == last || exists k :: 0 <= k < |xs| && StringSet(xs[k]) && r == xs[k].value
    ensures forall k :: 0 <= k < |xs| && StringSet(xs[k]) ==>
              exists j :: 0 <= j <= k && StringSet(xs[j]) && r == xs[j].value
  {
    if xs == [] then last
    else if StringSet(xs[0]) then xs[0].value
    else
      var r := FirstTruthy(xs[1..], last);
      assert forall k :: 1 <= k < |xs| ==> xs[k] == xs[1..][k - 1];
      r
  }

  /** `post.linkedProduct?.image`. */
  function ProductImage(post: Post): Option<string> {
    if post.linkedProduct.Some? then Some(post.linkedProduct.value.image) else None
  }

  /** The image on the card. A video never shows its own media URL in an
      image slot, and never an empty slot: it shows its thumbnail, its
      product's image or the stock picture. A carousel shows its first slide
      when it has one; anything else shows its content URL. */
  function DisplayImage(post: Post): (img: string)
    ensures post.kind == Video ==> img != ""
    ensures post.kind == Video ==>
              img == DEFAULT_SHARE_IMAGE || Some(img) == post.thumbnailUrl || Some(img) == ProductImage(post)
    ensures post.kind == Carousel && post.slides.Some? && |post.slides.value| > 0 ==> img == post.slides.value[0]
    ensures post.kind != Video && !(post.kind == Carousel && post.slides.Some? && |post.slides.value| > 0) ==>
              img == post.contentUrl
  {
    if post.kind == Video then
      if StringSet(post.thumbnailUrl) then post.thumbnailUrl.value
      else if post.linkedProduct.Some? && post.linkedProduct.value.image != "" then post.linkedProduct.value.image
      else DEFAULT_SHARE_IMAGE
    else if post.kind == Carousel && post.slides.Some? && |post.slides.value| > 0 then post.slides.value[0]
    else post.contentUrl
  }

  /** For a video the card image is the `||` chain of the thumbnail, the
      product image and the stock picture: the first truthy one wins. */
  lemma VideoImageIsFirstTruthy(post: Post)
    requires post.kind == Video
    ensures DisplayImage(post) == FirstTruthy([post.thumbnailUrl, ProductImage(post)], DEFAULT_SHARE_IMAGE)
  {
    var xs := [post.thumbnailUrl, ProductImage(post)];
    assert xs[1..] == [ProductImage(post)];
    assert xs[1..][1..] == [];
  }

  /** The value the QR code encodes. */
  function QrValue(post: Post): string {
    POST_URL_PREFIX + post.id
  }

  /** Reading a post id back out of a scanned link. */
  function PostIdFromLink(link: string): Option<string> {
    if |link| >= |POST_URL_PREFIX| && link[..|POST_URL_PREFIX|] == POST_URL_PREFIX
    then Some(link[|POST_URL_PREFIX|..])
    else None
  }

  /** The QR link names exactly its post: scanning it gives back the id, so
      two posts share a link only if they share an id. */
  lemma QrRoundTrip(post: Post)
    ensures PostIdFromLink(QrValue(post)) == Some(post.id)
  {
    assert QrValue(post)[..|POST_URL_PREFIX|] == POST_URL_PREFIX;
    assert QrValue(post)[|POST_URL_PREFIX|..] == post.id;
  }

  lemma QrDistinguishesPosts(p: Post, q: Post)
    requires QrValue(p) == QrValue(q)
    ensures p.id == q.id
  {
    QrRoundTrip(p);
    QrRoundTrip(q);
  }
}

=== FILE: store.dfy ===
/** The rewards store: lock and affordability rules for each reward, the
    boost-versus-redeem branch taken when a checkout confirms, the sponsor
    shelf ordered by the user's interests, and the level progress label. */
module Store {
  import opened Types

  /** The id reserved for the boost purchase. */
  const BOOST_ID: string := "boost-special"

  /** The pseudo-reward the boost banner opens checkout with: a cash purchase
      that costs no coins. */
  const BOOST_REWARD: Reward := Reward(BOOST_ID, 0, None)

  predicate IsLevelLocked(stats: UserStats, r: Reward) {
    stats.level < LevelRequired(r)
  }

  predicate CanAfford(stats: UserStats, r: Reward) {
    stats.coins >= r.cost
  }

  predicate IsLocked(stats: UserStats, r: Reward) {
    IsLevelLocked(stats, r) || !CanAfford(stats, r)
  }

  /** What a reward's button says. */
  datatype Label = LockedLabel | Shortfall(missing: int) | RedeemLabel

  function ButtonLabel(stats: UserStats, r: Reward): (l: Label)
    ensures l.RedeemLabel? <==> !IsLocked(stats, r)
    ensures l.LockedLabel? <==> IsLevelLocked(stats, r)
    ensures l.Shortfall? ==> l.missing > 0 && stats.coins + l.missing == r.cost
  {
    if IsLevelLocked(stats, r) then LockedLabel
    else if !CanAfford(stats, r) then Shortfall(r.cost - stats.coins)
    else RedeemLabel
  }

  /** JavaScript's `%`: the remainder takes the sign of the dividend. */
  function JsRem(a: int, b: int): (r: int)
    requires b > 0
    ensures a >= 0 ==> r == a % b
    ensures a < 0 ==> r == -((-a) % b)
  {
    if a >= 0 then a % b else -((-a) % b)
  }

  /** `Math.floor((coins % 1000) / 10)`: percent of the way to the next
      level. For a non-negative balance it is a whole percent below 100, and
      together with the level and the last digit it gives back the balance. */
  function ProgressPercent(coins: int): (p: int)
    ensures coins >= 0 ==> 0 <= p <= 99
    ensures coins >= 0 ==> coins == (LevelFor(coins) - 1) * 1000 + p * 10 + coins % 10
  {
    JsRem(coins, 1000) / 10
  }

  /** A checkout whose Pay button was pressed. Its two-second completion
      timer runs `confirmRedemption` as it was when Pay was pressed: the
      reward selected then, and the redeem handler of that render, which sees
      the statistics of that render. Closing the modal does not cancel it. */
  datatype Pending = Pending(reward: Reward, seen: UserStats)

  /** The store's checkout state: the selected reward, whose payment modal is
      shown; whether that modal has left its method screen; and the
      completions still to fire. */
  datatype Checkout = Checkout(selected: Option<Reward>, paid: bool, pending: seq<Pending>)

  const IDLE: Checkout := Checkout(None, false, [])

  /** `CompletionFired(k)` is the timer of the `k`-th outstanding payment. */
  datatype StoreEvent = ClickReward(r: Reward) | BuyBoost | Pay | CompletionFired(k: nat) | ClosePayment

  /** What the store asks of the session: activate the boost, or redeem a
      reward under the statistics the handler saw. */
  datatype Effect = NoEffect | ActivateBoost | RedeemReward(r: Reward, seen: UserStats)

  /** What a completion asks for: the boost pseudo-reward activates the
      boost, any other reward is redeemed. */
  function Fire(p: Pending): (eff: Effect)
    ensures eff.ActivateBoost? <==> p.reward.id == BOOST_ID
    ensures eff.RedeemReward? ==> eff.r == p.reward && eff.seen == p.seen
    ensures !eff.NoEffect?
  {
    if p.reward.id == BOOST_ID then ActivateBoost else RedeemReward(p.reward, p.seen)
  }

  function RemoveAt<T>(s: seq<T>, k: nat): (r: seq<T>)
    requires k < |s|
    ensures |r| == |s| - 1
  {
    s[..k] + s[k + 1..]
  }

  /** One store event. The payment modal is a full-screen overlay, so the
      reward buttons and the boost banner are reachable only while no modal is
      shown; the boost banner is hidden while the boost is active. */
  function StoreStep(stats: UserStats, c: Checkout, e: StoreEvent): (out: (Checkout, Effect))
    ensures e.ClickReward? && c.selected.None? && !IsLocked(stats, e.r) ==> out.0 == c.(selected := Some(e.r), paid := false)
    ensures e.ClickReward? && (c.selected.Some? || IsLocked(stats, e.r)) ==> out.0 == c
    ensures e.BuyBoost? ==> out.0 == if c.selected.None? && !FlagSet(stats.boostActive)
                                     then c.(selected := Some(BOOST_REWARD), paid := false) else c
    ensures e.Pay? && c.selected.Some? && !c.paid ==>
              out.0 == c.(paid := true, pending := c.pending + [Pending(c.selected.value, stats)])
    ensures e.Pay? && !(c.selected.Some? && !c.paid) ==> out.0 == c
    ensures e.ClosePayment? ==> out.0 == c.(selected := None, paid := false)
    ensures e.CompletionFired? && e.k < |c.pending| ==>
              out.1 == Fire(c.pending[e.k]) && out.0.pending == RemoveAt(c.pending, e.k)
    ensures e.CompletionFired? && e.k < |c.pending| && c.pending[e.k].reward.id == BOOST_ID ==>
              out.0.selected.None? && !out.0.paid
    ensures e.CompletionFired? && e.k < |c.pending| && c.pending[e.k].reward.id != BOOST_ID ==>
              out.0.selected == c.selected && out.0.paid == c.paid
    ensures e.CompletionFired? && e.k >= |c.pending| ==> out.0 == c
    ensures out.1.NoEffect? <==> !(e.CompletionFired? && e.k < |c.pending|)
  {
    match e
    case ClickReward(r) =>
      if c.selected.None? && !IsLocked(stats, r) then (c.(selected := Some(r), paid := false), NoEffect)
      else (c, NoEffect)
    case BuyBoost =>
      if c.selected.None? && !FlagSet(stats.boostActive)
      then (c.(selected := Some(BOOST_REWARD), paid := false), NoEffect)
      else (c, NoEffect)
    case Pay =>
      if c.selected.Some? && !c.paid
      then (c.(paid := true, pending := c.pending + [Pending(c.selected.value, stats)]), NoEffect)
      else (c, NoEffect)
    case CompletionFired(k) =>
      if k < |c.pending| then
        var p := c.pending[k];
        var rest := RemoveAt(c.pending, k);
        // the boost closes its modal at once; a redemption keeps the success screen
        if p.reward.id == BOOST_ID then (Checkout(None, false, rest), Fire(p))
        else (c.(pending := rest), Fire(p))
      else (c, NoEffect)
    case ClosePayment => (c.(selected := None, paid := false), NoEffect)
  }

  function StoreRun(stats: UserStats, c: Checkout, events: seq<StoreEvent>): (out: (Checkout, seq<Effect>))
    decreases |events|
  {
    if events == [] then (c, [])
    else
      var (c1, eff) := StoreStep(stats, c, events[0]);
      var (c2, effs) := StoreRun(stats, c1, events[1..]);
      (c2, (if eff.NoEffect? then [] else [eff]) + effs)
  }

  function CountPays(events: seq<StoreEvent>): nat {
    if events == [] then 0 else (if events[0].Pay? then 1 else 0) + CountPays(events[1..])
  }

  /** Every effect is the completion of one earlier payment: a run reports no
      more effects than the payments outstanding at its start plus the Pay
      presses within it, and those not yet reported are still outstanding. */
  lemma {:induction false} EffectsFollowPays(stats: UserStats, c: Checkout, events: seq<StoreEvent>)
    ensures |StoreRun(stats, c, events).1| + |StoreRun(stats, c, events).0.pending| <= |c.pending| + CountPays(events)
    decreases |events|
  {
    if events != [] {
      var (c1, eff) := StoreStep(stats, c, events[0]);
      EffectsFollowPays(stats, c1, events[1..]);
    }
  }

  /** Closing a paid checkout does not cancel it: selecting an unlocked
      reward, paying and closing, then letting the timer fire, redeems that
      reward under the statistics seen at Pay, whatever is selected by then. */
  lemma ClosedCheckoutStillRedeems(stats: UserStats, c: Checkout, r: Reward)
    requires c.selected.None? && !IsLocked(stats, r) && r.id != BOOST_ID
    ensures var (c1, _) := StoreStep(stats, c, ClickReward(r));
      var (c2, _) := StoreStep(stats, c1, Pay);
      var (c3, _) := StoreStep(stats, c2, ClosePayment);
      var (c4, eff) := StoreStep(stats, c3, CompletionFired(|c.pending|));
      c3.selected.None? && eff == RedeemReward(r, stats) && c4.pending == c.pending
  {
    var c2 := StoreStep(stats, StoreStep(stats, c, ClickReward(r)).0, Pay).0;
    assert c2.pending == c.pending + [Pending(r, stats)];
    assert RemoveAt(c2.pending, |c.pending|) == c.pending;
  }

  /** Confirming the boost never reaches the redeem handler: buying it,
      paying and letting the timer fire activates the boost and closes
      checkout. */
  lemma BoostNeverRedeems(stats: UserStats)
    requires !FlagSet(stats.boostActive)
    ensures var (c1, _) := StoreStep(stats, IDLE, BuyBoost);
      var (c2, _) := StoreStep(stats, c1, Pay);
      StoreStep(stats, c2, CompletionFired(0)) == (IDLE, ActivateBoost)
  {
  }

  // ---------------------------------------------------------------------
  // Sponsor shelf

  predicate Matches(p: Product, interests: seq<Category>) {
    p.category in interests
  }

  /** The products whose match status is `want`, in their original order. */
  function Select(ps: seq<Product>, interests: seq<Category>, want: bool): (r: seq<Product>)
    ensures |r| <= |ps|
    ensures forall k :: 0 <= k < |r| ==> Matches(r[k], interests) == want
  {
    if ps == [] then []
    else
      var last := ps[|ps| - 1];
      Select(ps[..|ps| - 1], interests, want) + (if Matches(last, interests) == want then [last] else [])
  }

  /** The shelf order: interest matches first, each group in catalog order. */
  function SortedSponsors(ps: seq<Product>, interests: seq<Category>): (r: seq<Product>)
    ensures |r| == |ps|
    ensures multiset(r) == multiset(ps)
    ensures forall i, j :: 0 <= i < j < |r| && Matches(r[j], interests) ==> Matches(r[i], interests)
    ensures Select(r, interests, true) == Select(ps, interests, true)
    ensures Select(r, interests, false) == Select(ps, interests, false)
  {
    PartitionFacts(ps, interests);
    Select(ps, interests, true) + Select(ps, interests, false)
  }

  lemma PartitionFacts(ps: seq<Product>, interests: seq<Category>)
    ensures var r := Select(ps, interests, true) + Select(ps, interests, false);
      |r| == |ps|
      && multiset(r) == multiset(ps)
      && (forall i, j :: 0 <= i < j < |r| && Matches(r[j], interests) ==> Matches(r[i], interests))
      && Select(r, interests, true) == Select(ps, interests, true)
      && Select(r, interests, false) == Select(ps, interests, false)
  {
    var m := Select(ps, interests, true);
    var n := Select(ps, interests, false);
    SelectSplits(ps, interests);
    SelectOfSelected(m, interests, true);
    SelectOfSelected(n, interests, false);
    SelectAppend(m, n, interests);
    var r := m + n;
    forall i, j | 0 <= i < j < |r| && Matches(r[j], interests)
      ensures Matches(r[i], interests)
    {
      if j < |m| {
        assert r[i] == m[i];
      }
    }
  }

  lemma {:induction false} SelectSplits(ps: seq<Product>, interests: seq<Category>)
    ensures |Select(ps, interests, true)| + |Select(ps, interests, false)| == |ps|
    ensures multiset(Select(ps, interests, true)) + multiset(Select(ps, interests, false)) == multiset(ps)
  {
    if ps != [] {
      var front := ps[..|ps| - 1];
      var x := ps[|ps| - 1];
      SelectSplits(front, interests);
      assert ps == front + [x];
      assert multiset(ps) == multiset(front) + multiset{x};
      if Matches(x, interests) {
        assert Select(ps, interests, true) == Select(front, interests, true) + [x];
        assert Select(ps, interests, false) == Select(front, interests, false);
      } else {
        assert Select(ps, interests, true) == Select(front, interests, true);
        assert Select(ps, interests, false) == Select(front, interests, false) + [x];
      }
    }
  }

  lemma {:induction false} SelectOfSelected(ps: seq<Product>, interests: seq<Category>, want: bool)
    requires forall k :: 0 <= k < |ps| ==> Matches(ps[k], interests) == want
    ensures Select(ps, interests, want) == ps
    ensures Select(ps, interests, !want) == []
  {
    if ps != [] {
      SelectOfSelected(ps[..|ps| - 1], interests, want);
      assert ps == ps[..|ps| - 1] + [ps[|ps| - 1]];
    }
  }

  lemma {:induction false} SelectAppend(a: seq<Product>, b: seq<Product>, interests: seq<Category>)
    ensures Select(a + b, interests, true) == Select(a, interests, true) + Select(b, interests, true)
    ensures Select(a + b, interests, false) == Select(a, interests, false) + Select(b, interests, false)
    decreases |b|
  {
    if b == [] {
      assert a + b == a;
    } else {
      var bf := b[..|b| - 1];
      assert (a + b)[..|a + b| - 1] == a + bf;
      SelectAppend(a, bf, interests);
    }
  }

  // The source orders the shelf with `Array.prototype.sort` and the
  // comparator `bMatches - aMatches`. Sorting is stable, and the result of a
  // stable sort is unique, so a stable insertion sort with the same
  // comparator serves as the reference for `SortedSponsors`.

  function Key(p: Product, interests: seq<Category>): int {
    if Matches(p, interests) then 1 else 0
  }

  function Compare(a: Product, b: Product, interests: seq<Category>): int {
    Key(b, interests) - Key(a, interests)
  }

  /** Puts `x` after the last element that does not sort after it. */
  function InsertStable(sorted: seq<Product>, x: Product, interests: seq<Category>): seq<Product>
    decreases |sorted|
  {
    if sorted == [] then [x]
    else
      var last := sorted[|sorted| - 1];
      if Compare(last, x, interests) <= 0 then sorted + [x]
      else InsertStable(sorted[..|sorted| - 1], x, interests) + [last]
  }

  function InsertionSort(ps: seq<Product>, interests: seq<Category>): seq<Product> {
    if ps == [] then []
    else InsertStable(InsertionSort(ps[..|ps| - 1], interests), ps[|ps| - 1], interests)
  }

  /** Inserting a match into "matches then non-matches" lands it at the end of
      the matches. */
  lemma {:induction false} InsertMatch(m: seq<Product>, n: seq<Product>, x: Product, interests: seq<Category>)
    requires forall k :: 0 <= k < |m| ==> Matches(m[k], interests)
    requires forall k :: 0 <= k < |n| ==> !Matches(n[k], interests)
    requires Matches(x, interests)
    ensures InsertStable(m + n, x, interests) == m + [x] + n
    decreases |n|
  {
    if n == [] {
      assert m + n == m;
      if m != [] {
        assert (m + n)[|m + n| - 1] == m[|m| - 1];
      }
    } else {
      var nf := n[..|n| - 1];
      assert (m + n)[..|m + n| - 1] == m + nf;
      assert (m + n)[|m + n| - 1] == n[|n| - 1];
      InsertMatch(m, nf, x, interests);
      assert m + [x] + nf + [n[|n| - 1]] == m + [x] + n;
    }
  }

  /** Inserting a non-match appends it. */
  lemma InsertNonMatch(sorted: seq<Product>, x: Product, interests: seq<Category>)
    requires !Matches(x, interests)
    ensures InsertStable(sorted, x, interests) == sorted + [x]
  {
    if sorted != [] {
      assert Compare(sorted[|sorted| - 1], x, interests) <= 0;
    }
  }

  /** The stable sort by the source's comparator is exactly the partition. */
  lemma {:induction false} InsertionSortIsPartition(ps: seq<Product>, interests: seq<Category>)
    ensures InsertionSort(ps, interests) == SortedSponsors(ps, interests)
  {
    if ps != [] {
      var front := ps[..|ps| - 1];
      var x := ps[|ps| - 1];
      InsertionSortIsPartition(front, interests);
      var m := Select(front, interests, true);
      var n := Select(front, interests, false);
      assert InsertionSort(ps, interests) == InsertStable(m + n, x, interests);
      if Matches(x, interests) {
        InsertMatch(m, n, x, interests);
        assert Select(ps, interests, true) == m + [x];
        assert Select(ps, interests, false) == n;
        assert m + [x] + n == (m + [x]) + n;
      } else {
        InsertNonMatch(m + n, x, interests);
        assert Select(ps, interests, true) == m;
        assert Select(ps, interests, false) == n + [x];
        assert m + n + [x] == m + (n + [x]);
      }
    }
  }
}

=== FILE: text.dfy ===
/** String helpers the components share: JavaScript's whitespace class (used
    by `trim()` and by the `\s` regular-expression class), ASCII lower-casing,
    decimal rendering of integers and its parser, and two-digit padding. */
module Text {

  /** The characters JavaScript counts as white space (`\s`, and what `trim`
      strips): the ASCII controls, space, and the Unicode space separators. */
  predicate IsSpace(c: char) {
    || c == ' ' || c == '\t' || c == '\n' || c == '\r' || c == '\U{000B}' || c == '\U{000C}'
    || c == '\U{00A0}' || c == '\U{1680}' || ('\U{2000}' <= c <= '\U{200A}')
    || c == '\U{2028}' || c == '\U{2029}' || c == '\U{202F}' || c == '\U{205F}'
    || c == '\U{3000}' || c == '\U{FEFF}'
  }

  predicate AllSpace(s: string) {
    forall i :: 0 <= i < |s| ==> IsSpace(s[i])
  }

  predicate NoSpace(s: string) {
    forall i :: 0 <= i < |s| ==> !IsSpace(s[i])
  }

  function TrimStart(s: string): (r: string)
    ensures |r| <= |s| && r == s[|s| - |r|..]
    ensures r == [] || !IsSpace(r[0])
    ensures AllSpace(s[..|s| - |r|])
  {
    if |s| > 0 && IsSpace(s[0]) then
      var r := TrimStart(s[1..]);
      assert s[..|s| - |r|] == [s[0]] + s[1..][..|s| - 1 - |r|];
      r
    else s
  }

  function TrimEnd(s: string): (r: string)
    ensures |r| <= |s| && r == s[..|r|]
    ensures r == [] || !IsSpace(r[|r| - 1])
    ensures AllSpace(s[|r|..])
  {
    if |s| > 0 && IsSpace(s[|s| - 1]) then
      var r := TrimEnd(s[..|s| - 1]);
      assert s[|r|..] == s[..|s| - 1][|r|..] + [s[|s| - 1]];
      r
    else s
  }

  /** `String.prototype.trim`: both ends stripped of white space. */
  function Trim(s: string): string {
    TrimEnd(TrimStart(s))
  }

  /** The trimmed text is empty exactly when the text is all white space,
      which is what makes `if (text.trim())` a "has a visible character" test. */
  lemma TrimEmptyIffAllSpace(s: string)
    ensures Trim(s) == [] <==> AllSpace(s)
  {
    var t := TrimStart(s);
    if Trim(s) == [] {
      assert AllSpace(t[0..]);
      assert t == [];
      assert s[..|s|] == s;
    } else {
      var r := Trim(s);
      assert !IsSpace(r[0]);
      assert r[0] == t[0] == s[|s| - |t|];
    }
  }

  /** Trimming keeps a contiguous piece of the text: it starts where the
      leading white space ends. */
  lemma TrimIsSlice(s: string)
    ensures var i := |s| - |TrimStart(s)|;
      i + |Trim(s)| <= |s| && Trim(s) == s[i..i + |Trim(s)|]
  {
    var t := TrimStart(s);
    var r := TrimEnd(t);
    PrefixOfSuffix(s, t, r);
  }

  lemma PrefixOfSuffix(s: string, t: string, r: string)
    requires |t| <= |s| && t == s[|s| - |t|..]
    requires |r| <= |t| && r == t[..|r|]
    ensures r == s[|s| - |t|..|s| - |t| + |r|]
  {
  }

  /** What trimming keeps starts and ends with a visible character. */
  lemma TrimEdgesVisible(s: string)
    ensures Trim(s) == [] || (!IsSpace(Trim(s)[0]) && !IsSpace(Trim(s)[|Trim(s)| - 1]))
  {
    var t := TrimStart(s);
    if Trim(s) != [] {
      assert Trim(s)[0] == t[0];
    }
  }

  /** ASCII lower-casing; other characters are unchanged. */
  function LowerChar(c: char): char {
    if 'A' <= c <= 'Z' then (c as int - 'A' as int + 'a' as int) as char else c
  }

  function Lower(s: string): (r: string)
    ensures |r| == |s|
    ensures forall i :: 0 <= i < |s| ==> r[i] == LowerChar(s[i])
  {
    if s == [] then [] else [LowerChar(s[0])] + Lower(s[1..])
  }

  /** `s.replace(/\s/g, '')`: every white-space character dropped. */
  function RemoveSpaces(s: string): (r: string)
    ensures NoSpace(r)
    ensures |r| <= |s|
    ensures NoSpace(s) ==> r == s
    ensures AllSpace(s) ==> r == []
  {
    if s == [] then []
    else if IsSpace(s[0]) then RemoveSpaces(s[1..])
    else [s[0]] + RemoveSpaces(s[1..])
  }

  /** Removal works piece by piece: the text before and after any cut loses
      its own white space and nothing else, so the visible characters keep
      their order. With the single-character cases (a visible character is
      kept, a white-space one dropped) this pins the result. */
  lemma {:induction false} RemoveSpacesAppend(a: string, b: string)
    ensures RemoveSpaces(a + b) == RemoveSpaces(a) + RemoveSpaces(b)
  {
    if a == [] {
      assert a + b == b;
    } else {
      assert (a + b)[0] == a[0];
      assert (a + b)[1..] == a[1..] + b;
      RemoveSpacesAppend(a[1..], b);
    }
  }

  predicate IsDigit(c: char) {
    '0' <= c <= '9'
  }

  function DigitChar(d: int): char
    requires 0 <= d < 10
  {
    ('0' as int + d) as char
  }

  function DigitValue(c: char): int
    requires IsDigit(c)
  {
    c as int - '0' as int
  }

  /** Decimal rendering of a natural number, most significant digit first. */
  function NatToString(n: nat): (s: string)
    ensures |s| > 0
    ensures forall i :: 0 <= i < |s| ==> IsDigit(s[i])
    ensures n < 10 <==> |s| == 1
    decreases n
  {
    if n < 10 then [DigitChar(n)] else NatToString(n / 10) + [DigitChar(n % 10)]
  }

  /** Decimal rendering of an integer as `String(n)` writes it. */
  function IntToString(n: int): string {
    if n < 0 then "-" + NatToString(-n) else NatToString(n)
  }

  /** The value of a string of decimal digits. */
  function ParseNat(s: string): nat
    requires forall i :: 0 <= i < |s| ==> IsDigit(s[i])
  {
    if s == [] then 0 else ParseNat(s[..|s| - 1]) * 10 + DigitValue(s[|s| - 1])
  }

  /** Reading a rendered number back yields the number. */
  lemma {:induction false} ParseNatToString(n: nat)
    ensures ParseNat(NatToString(n)) == n
    decreases n
  {
    if n >= 10 {
      var s := NatToString(n);
      assert s[..|s| - 1] == NatToString(n / 10);
      ParseNatToString(n / 10);
    }
  }

  /** Signed parse: an optional leading minus sign, then digits. */
  function ParseInt(s: string): int
    requires |s| > 0
    requires s[0] == '-' ==> forall i :: 1 <= i < |s| ==> IsDigit(s[i])
    requires s[0] != '-' ==> forall i :: 0 <= i < |s| ==> IsDigit(s[i])
  {
    if s[0] == '-' then -(ParseNat(s[1..]) as int) else ParseNat(s)
  }

  lemma ParseIntToString(n: int)
    ensures var s := IntToString(n);
      |s| > 0
      && (s[0] == '-' ==> forall i :: 1 <= i < |s| ==> IsDigit(s[i]))
      && (s[0] != '-' ==> forall i :: 0 <= i < |s| ==> IsDigit(s[i]))
      && ParseInt(s) == n
  {
    var s := IntToString(n);
    if n < 0 {
      assert s[1..] == NatToString(-n);
      ParseNatToString(-n);
    } else {
      ParseNatToString(n);
    }
  }

  /** `String(n).padStart(2, '0')` for a value below 100. */
  function Pad2(n: nat): (s: string)
    requires n < 100
    ensures |s| == 2 && IsDigit(s[0]) && IsDigit(s[1])
    ensures DigitValue(s[0]) * 10 + DigitValue(s[1]) == n
  {
    var d := NatToString(n);
    if |d| < 2 then "0" + d
    else
      assert d[..|d| - 1] == NatToString(n / 10);
      d
  }
}

=== FILE: types.dfy ===
/** The data model of the feed app: categories, posts, authors, products,
    store rewards and the user's coin statistics. Optional fields are
    `Option`s, and the places where the app tests them for JavaScript
    truthiness go through the small predicates below. */
module Types {

  datatype Option<+T> = None | Some(value: T)

  /** The seven interest categories. */
  datatype Category = Fashion | Tech | Travel | Food | Entertainment | Sports | General

  datatype PostKind = Video | Image | Carousel | Ad | Roulette

  datatype Author = Author(id: string, name: string, bio: Option<string>, followers: Option<int>)

  datatype Product = Product(id: string, name: string, image: string, category: Category)

  datatype Post = Post(
    id: string,
    kind: PostKind,
    contentUrl: string,
    thumbnailUrl: Option<string>,
    slides: Option<seq<string>>,
    category: Category,
    author: Author,
    likes: int,
    comments: int,
    shares: int,
    linkedProduct: Option<Product>,
    isAd: Option<bool>)

  /** The interaction kinds a feed item reports to the session. */
  datatype InteractionKind = Like | Comment | Share | View | Save | Follow | Spin

  /** One `onInteraction(type, category, amount?)` call from a feed item. */
  datatype Interaction = Interaction(kind: InteractionKind, category: Category, amount: Option<int>)

  datatype Reward = Reward(id: string, cost: int, minLevel: Option<int>)

  datatype UserStats = UserStats(coins: int, streakDays: int, level: int, boostActive: Option<bool>)

  /** An optional flag is truthy only when it is present and true. */
  predicate FlagSet(b: Option<bool>) {
    b == Some(true)
  }

  /** An optional string is truthy only when it is present and non-empty. */
  predicate StringSet(s: Option<string>) {
    s.Some? && s.value != ""
  }

  /** `minLevel || 1`: an absent or zero minimum level means level 1. */
  function LevelRequired(r: Reward): int {
    match r.minLevel
    case Some(m) => if m != 0 then m else 1
    case None => 1
  }

  /** Level as the app derives it from a balance on every award. */
  function LevelFor(coins: int): int {
    coins / 1000 + 1
  }
}
